=== FILE: README.md ===
# A verified model of the request-handling core of `server.py`

`server.py` is a small multi-threaded HTTP/1.1 file server. A bounded thread
pool hands accepted connections to worker threads. Each worker runs
`handle_client`, a keep-alive loop that does four things per request:

- it frames a request from the byte stream;
- it parses the request with `parse_request`;
- it routes it through `handle_request`, which runs the Host and path guards
  and then GET file serving or POST JSON upload;
- it sends back a response built by one of three serialisers.

This project models that core in Dafny as pure functions over immutable
datatypes and proves its properties. Sockets, threads, the file system, JSON
and the clock become explicit inputs. The modules follow the program's
components:

- `Wrappers`: `Option`, standing for Python's `None` result and for a call
  that raised.
- `Text`: the Python string operations the code relies on:
  - `str.strip` and `str.split()` (`Words`);
  - `str.split(sep)` and `str.join`;
  - `find` and `in` (`IndexOf`, `Contains`);
  - `lstrip` and ASCII `lower`/`upper`.
- `Numerals`: `str(n)` (`Decimal`) and `int(s)` (`ParseInt`, with sign and
  underscores), and the round trip between them.
- `Parser`: `parse_request`, which gives the request line, the header map
  (last write wins) and the body after the first CRLFCRLF. It also holds the
  message layout shared by requests and responses: lines joined by CRLF, a
  blank line, then the body.
- `Framer`: the receive loop at the top of `handle_client`.
  - A connection's `recv` results are a sequence of `Recv` values:
    `Chunk("")` is the peer closing, and `TimedOut` is the socket timeout.
  - `Receive` consumes them until the frame is complete, exceeds 8192 bytes,
    or the peer closes.
  - It fails on a timeout or on a Content-Length value that `int` rejects.
- `Settings`: the fixed server settings: a 30-second keep-alive timeout, 100
  requests per connection, and the host and port.
- `Responses`: `build_response`, `build_binary_response`,
  `build_error_response`, and the wire form of a response (lines joined by
  CRLF, a blank line, then the body).
- `Paths`: `validate_path`. The caller supplies percent-decoding and the
  canonical-prefix test.
- `Router`: `handle_request` with its guards, the connection directive, the
  method dispatch, and the GET and POST handlers up to the builder call. The
  builder to call is given as an abstract `Outcome`.
- `Connection`: the keep-alive loop of `handle_client`, over a `Handler`
  record. The record holds the framer, the parser, the router and the 400
  rejection.
  - `Live` instantiates the record with the server's own functions.
  - Generic lemmas about `Run` are specialised to `HandleClient`.
- `ThreadPool`: the queue and the `active_threads` counter of `ThreadPool`,
  as a sequential state machine. Each `submit`, each dequeue and each end of
  `handle_client` is one atomic step; a schedule is any sequence of such steps.

Beyond the per-function contracts, two end-to-end results tie the pieces
together:

- **Every response reads back.** Every response the server sends frames back
  through the server's own receive rules as complete, with exactly its body,
  and its `Connection` field names the directive the loop then acts on
  (`Connection.ClientHonest`). This needs a date without CR.
- **The pool accounting is exact.** Over any schedule the pool's queue is
  first-in first-out, and every arrival is either accepted or rejected
  (`ThreadPool.RunConserves`).

## Model

| member | source | states |
|---|---|---|
| Parser.ParseRequest | server.py:247-291 | The result is `None` exactly when the request line does not split into three whitespace-separated words. Otherwise the method is the first word upper-cased, and the path and version are the other two words. The headers are the map built from the header-block lines after the request line. The body is everything after the first CRLFCRLF, or empty when there is none. The path is non-empty and free of whitespace. |
| Parser.ParseRequestRoundTrip | server.py:254-287 | Parsing inverts writing. Take a request line of three blank-separated words, header lines that are non-empty and free of CRs, and any body, even one holding a CRLFCRLF. Parsing that text gives back the words (the method upper-cased), the header map of exactly those lines, and exactly that body. |
| Parser.FrameSplits | server.py:254-262 | Take lines that are non-empty and free of CRs, joined by CRLF and followed by a blank line and a body. In that text the first CRLFCRLF is the one after the last line. The header block splits back into exactly those lines, and what follows is exactly the body. |
| Parser.HeadStartsWithFirstLine | server.py:254-268 | The first line of the header block is the frame's text before its first CRLF, whether or not a CRLFCRLF is present. |
| Parser.HeaderMapDomain | server.py:275-279 | A key is in the header map exactly when some line holds a colon and has that key. The key is the text before the line's first colon, stripped and lower-cased. Lines without a colon contribute nothing. |
| Parser.HeaderMapLastWins | server.py:275-279 | The value stored under a key is the stripped text after the first colon of the last line with that key. Earlier duplicates are overwritten. |
| Text.SplitJoin | server.py:262 | Splitting on a separator the text of pieces joined with that separator gives back the pieces, provided no piece holds the separator's first character. |
| Text.WordsOfJoin | server.py:268 | `split()` is the inverse of joining non-empty, whitespace-free words with single blanks. |
| Text.IndexOfMeaning | server.py:192-194 | `find` returns the first position where the pattern occurs, and nothing when it occurs nowhere. |
| Numerals.ParseDecimal | server.py:201 | `int(str(n)) == n` for every natural number. So a Content-Length the builders write is read back by the framing rules as the same number. |
| Framer.Receive | server.py:184-210 | The loop consumes at least one `recv` result unless the input is exhausted (a client that stays silent), and returns exactly the bytes of the chunks it read. It stops with `PeerClosed` only on an empty chunk, with `Complete` only when the completion check says so, and with `Oversized` only beyond 8192 bytes of an incomplete frame. It fails with `BadContentLength` only when the check raised on the bytes so far. It fails with `Timeout` only at a timeout, or at the end of the input when every chunk from the starting position on was non-empty and left the frame incomplete and within 8192 bytes. So a chunk after which a stop condition holds always stops the loop, even when it is the last one. |
| Framer.LastChunkFrames | server.py:184-206 | A request that arrives whole in one `recv`, with nothing after it, is framed as complete from exactly that chunk. |
| Framer.ReceiveStopsAtFirstBoundary | server.py:184-210 | Every chunk before the last one consumed was non-empty and left the frame incomplete and within 8192 bytes. So the loop stops at the first chunk after which a stop condition holds. |
| Framer.FrameSizeBound | server.py:185-210 | With `recv(8192)` returning at most 8192 bytes, a frame never exceeds 16384 bytes. |
| Framer.VerdictMeaning | server.py:192-206 | The check after each chunk reports complete exactly when three things hold: the CRLFCRLF is present, the declared length parses, and the bytes after the CRLFCRLF reach it. It raises exactly when the CRLFCRLF is present and some Content-Length line of the header block does not parse. |
| Framer.ContentLengthRaises | server.py:198-201 | Reading the declared length raises exactly when some line starting (case-insensitively) with `content-length:` has a value `int` rejects. The value is the text between the first and second colon. This holds wherever that line stands. |
| Framer.ContentLengthLastWins | server.py:199-201 | When no earlier length line raises, the declared length is the value of the last length line. |
| Framer.ContentLengthDefault | server.py:198 | Without a length line the declared length is 0. |
| Responses.BuildResponse | server.py:510-530 | The response has the given status, reason and body, and `Content-Type` is the given type. `Content-Length` is the decimal size of the body. `Date` is the given date and `Server` is `Multi-threaded HTTP Server`. `Connection` names the directive. `Keep-Alive` is present exactly for keep-alive, and then holds the server's timeout and request limit. There is no `Retry-After`. |
| Responses.BuildBinaryResponse | server.py:532-551 | The response is a 200 OK with the data as body, `Content-Type: application/octet-stream`, and the body size as `Content-Length`. It has a `Content-Disposition` attachment naming the file. `Date` is the given date and `Server` is `Multi-threaded HTTP Server`. `Connection` names the directive. `Keep-Alive` appears exactly for keep-alive, and then holds the server's timeout and request limit. There is no `Retry-After`. |
| Responses.KeepAliveSettings | server.py:523-524 | The keep-alive parameters the success builders send are `timeout=30, max=100`. |
| Responses.BuildErrorResponse | server.py:553-589 | The body is the HTML error page for the status, reason and message. The type is `text/html; charset=utf-8` and `Content-Length` is the page size. `Date` is the given date and `Server` is `Multi-threaded HTTP Server`. `Connection` names the directive. There is never a `Keep-Alive` field. `Retry-After: 30` is present exactly for status 503. |
| Responses.BuildResponseConventional | server.py:514-524 | Given header text without CR, `build_response` puts the body size in the second field. No other field can be mistaken for a Content-Length line or break a line. |
| Responses.BuildBinaryResponseConventional | server.py:534-545 | The same for `build_binary_response`, given a file name and date without CR. |
| Responses.BuildErrorResponseConventional | server.py:573-583 | The same for `build_error_response`, given a reason and date without CR. |
| Responses.WireSplits | server.py:526-530 | In the wire form of such a response, the first CRLFCRLF is the one after the last header line. The header block splits back into exactly the status line and the field lines, and what follows is exactly the body. |
| Responses.LengthFieldReadsBack | server.py:517 | The `Content-Length: n` line a builder writes is a length line for the framing rules, and its value reads back as `n`. |
| Responses.ResponseReadsBack | server.py:526-530 | The framing rules and the parser read such a response back: its header lines and its body, with a complete verdict. |
| Paths.BlockedMeaning | server.py:363-366 | The blocklist rejects a decoded path exactly when it holds a backslash, `..`, `./` or `//` somewhere. The doubled backslash adds nothing. |
| Paths.BlockedRefused | server.py:360-366 | A path whose decoded form is blocked is refused, whatever the canonical-prefix test says. |
| Paths.RootAccepted | server.py:378-379 | A path that decodes to `''` or `'/'` is accepted without the canonical-prefix test. |
| Paths.OtherPathChecked | server.py:368-386 | Any other path is accepted exactly when the prefix test accepts the decoded path without its leading slash. The `lstrip('/')` never changes that name, because a doubled slash was already refused. |
| Router.ExtensionMeaning | server.py:406 | `splitext` gives a non-empty extension exactly when the path has a dot with neither a slash nor another dot after it, preceded in its component by some character other than a dot. The extension is then the text from that dot on, so `.profile` has none and `a.tar.gz` gives `.gz`. |
| Router.ResolveDirective | server.py:331-339 | An explicit `Connection: close` or `Connection: keep-alive`, in any letter case, decides the directive. Without either, the connection is kept alive exactly for HTTP/1.1. |
| Router.RefusalOrder | server.py:305-329 | The guards refuse in a fixed order. A missing or empty Host gives 400. A Host outside the six allowed values gives 403 "Host header mismatch". Only then does a path failing `validate_path` give 403 "Unauthorized path access". Passing all three is exactly a valid Host and a valid path. |
| Router.GuardsRunFirst | server.py:305-329 | A refused request is answered with 400 or 403 and directive `close`. The answer is the same whatever the file system and upload store hold. |
| Router.MethodDispatch | server.py:331-352 | A request that passes the guards is answered under its resolved directive. Only a POST can raise. Every method other than GET and POST gets 405. |
| Router.ReplyAdvertisesDirective | server.py:293-352 | Every reply's `Connection` field names the directive returned beside it, and `Keep-Alive` appears only with keep-alive. |
| Router.GetOutcome | server.py:399-455 | Once the file, its lower-cased extension and its base name are fixed, a GET gets 404 exactly when the looked-up path is not a regular file, so before any extension check, and the message then names the looked-up path. It gets 415 exactly for an existing file with an extension other than `.html`, `.txt`, `.png`, `.jpg` or `.jpeg`, and 500 when the read raises. Otherwise it gets 200 with the page text, or the binary data as an attachment. |
| Router.GetPicksFile | server.py:390-455 | For every request path, the file looked up is `resources/` joined to the path without its leading slashes, with `/` and the empty path standing for `/index.html`. A GET gets 404 exactly when that is not a regular file, with the message `The requested resource <path> was not found` naming the path after the index substitution. The lower-cased `splitext` of that file decides between 415, an HTML page with the file's text and an attachment with the file's bytes. The attachment is named by the file's last path component. |
| Router.RootServesIndex | server.py:393-394 | A GET for `/` and a GET for the empty path are answered exactly as a GET for `/index.html`. |
| Router.UpperCaseHtmlIsPage | server.py:406-413 | The extension is compared after lower-casing, so an existing `/PAGE.HTML` that reads as text is served as an HTML page. |
| Router.BasenameMeaning | server.py:428 | `basename` of a path holding a slash is its last component: the text after a slash with no slash after it. |
| Router.PostOutcome | server.py:457-508 | A POST gets 415 exactly when the content type lacks `application/json`. It raises exactly when decoding the body or parsing it as JSON raises something other than a JSON syntax error. It gets 201 exactly when the upload was stored, with that file name. Otherwise it gets 400 or 500. |
| Router.RenderFields | server.py:510-589 | The response rendered for an outcome carries the outcome's status and standard reason, and `Connection` names the directive. It has the body and content type of its kind: error page, HTML text, JSON confirmation or attachment. |
| Router.RenderReadsBack | server.py:510-589 | Every rendered response frames back through the server's own receive rules with exactly its body. This needs a date without CR and, for an attachment, a name without CR. |
| Router.RepliesReadBack | server.py:293-352 | Every reply of `handle_request` frames back with exactly its body, given a date and request path without CR. |
| Connection.Turn | server.py:212-234 | After a frame the loop reads on only when four things hold: the request parsed, it was answered under keep-alive, it was not HTTP/1.0, and the peer had not closed while sending it. An empty frame ends it uncounted, and a failed read ends it with that fault. Otherwise exactly one exchange is recorded. |
| Connection.Run | server.py:177-215 | At most 100 requests are counted per connection. The loop ends for the limit only once 100 have been counted. |
| Connection.RunKeepsOpen | server.py:177-241 | Every exchange but the last kept the connection open. The connection ends after an exchange that did not keep it open exactly when that exchange's answer decided the ending. |
| Connection.RunReadsInOrder | server.py:181-215 | Frames are read without gaps or overlaps. The first starts where the loop starts, each next one where the previous one ended, and each exchange holds the frame read at its position. |
| Connection.RunAnswers | server.py:215-234 | Every exchange holds the parser's result for its frame. An unparsable frame gets the 400 page and `close`. A parsed request gets what `handle_request` returned, or nothing when it raised. |
| Connection.ClientReads | server.py:177-215 | On a connection at most 100 requests are counted, and every frame is what the receive rules frame at its position in the input. |
| Connection.ClientHonest | server.py:218-234 | Every response sent on a connection reads back through the server's own framing rules with exactly its body. Its `Connection` field names the directive the loop acts on. |
| Connection.Http10KeepAliveCloses | server.py:226-227 | Take an HTTP/1.0 request with `Connection: keep-alive` that passes the guards. It is answered with `Connection: keep-alive`, yet the connection closes right after. |
| ThreadPool.Start | server.py:26-36 | A new pool has the given number of idle workers, an empty queue, and a counter of 0, and it is valid. |
| ThreadPool.Submit | server.py:63-74 | A connection is accepted exactly when fewer than 50 are waiting. An accepted one joins the tail of the queue. A rejected one leaves the queue unchanged. Workers and counter are untouched. |
| ThreadPool.TakeValid | server.py:43-46 | A dequeue keeps the counter equal to the number of busy workers. |
| ThreadPool.FinishValid | server.py:51-61 | The end of `handle_client`, normal or by exception, keeps the counter equal to the number of busy workers. |
| ThreadPool.WorkerCycle | server.py:38-61 | A worker's dequeue-and-handle cycle restores the counter and the worker, whether or not the handler raised. It removes exactly the oldest waiting connection. |
| ThreadPool.RunConserves | server.py:38-74 | Over any schedule the pool stays valid, and every arrival is accepted or rejected. The queue is first-in first-out: the waiting connections followed by those accepted are, in order, those taken by workers followed by those still waiting. |
| ThreadPool.RejectsOnlyWhenFull | server.py:65-74 | An arrival is rejected exactly when 50 connections are waiting, and accepted exactly otherwise. |

## Where the model follows the code

On these points the code does something other than what a reader of the
server's comments or of the HTTP conventions it names might expect; the model
follows the code.

- **Oversized requests.** Accumulating more than 8192 bytes does not produce
  a 400. The loop stops and the truncated bytes are parsed and answered like
  any other frame (`Framer.Receive` with `Oversized`).
- **Bad Content-Length.** A Content-Length value `int` rejects is neither
  defaulted to 0 nor answered with 400.
  - The `ValueError` escapes the receive loop, and the connection closes
    without a response.
  - That frame is not counted as a request.
  - A later valid length line does not rescue it (`Framer.ContentLengthRaises`).
- **Which part of the line is the length.** The value is the text between the
  first and the second colon of the line, not everything after the first
  colon.
- **404 before 415.** A GET for a missing file with an unsupported extension
  gets 404, not 415. The extension is checked only for an existing file
  (`Router.GetOutcome`).
- **Raising POST handler.** Only `JSONDecodeError` is caught around
  `json.loads(body.decode('utf-8'))`. A body that is not UTF-8, JSON nested
  past the recursion limit, or an integer literal past the digit limit raises
  out of `handle_request`, and the connection then closes without a response
  (`Crashed`).
- **HTTP/1.0 with keep-alive.** An HTTP/1.0 request with
  `Connection: keep-alive` is answered with `Connection: keep-alive`, but the
  loop closes the connection after it (`Connection.Http10KeepAliveCloses`). A
  200 or 201 reply also carries a `Keep-Alive` field; an error reply does not,
  because `build_error_response` never adds one.
- **No-op `lstrip`.** In `validate_path` the `lstrip('/')` after removing one
  leading slash never changes anything, because `//` is already refused
  (`Paths.OtherPathChecked`).
- **Reason phrases.** Each call site pairs a status code with its standard
  reason phrase. The model derives the phrase from the code (`Router.Reason`).

## Left out

- Socket I/O is replaced by the `recv` results (`Recv`) and by the responses
  recorded in each `Exchange`. That covers `accept`, `recv`, `sendall`,
  `settimeout` and `close`. A `sendall` that raises is not modelled: every
  recorded reply is taken to be sent.
- Threads, the lock, the shutdown flag, `get_status` and the blocking
  `get(timeout=1)` are left out; the pool is a sequential state machine whose
  steps are atomic. Concurrency itself is out of scope. A worker's `Empty`
  timeout is a dequeue step that finds the queue empty and changes nothing.
- Logging and `print` are left out, including the saturation warning in
  `submit` and the 70%-utilisation log line in `start`. They are assumed not
  to raise; a `print` that raises (an encoding error on stdout, a closed pipe)
  would end the connection like any other exception in the handler.
- UTF-8 decoding is left out: bytes and characters are identified, and
  `decode('utf-8', errors='ignore')` is the identity.
  - `Content-Length` therefore counts characters.
  - Python's non-ASCII case mapping and Unicode digits are not modelled: `lower`
    and `upper` are ASCII-only, and `int` accepts ASCII digits only.
- Numerals.ParseInt: does not model the limit on the number of decimal digits
  (4300 by default) that Python 3.11, and the security releases of 3.7 to
  3.10, put on `int(s)` and `str(n)`. Beyond it `int` raises `ValueError`, so
  in the source a Content-Length value of more than 4300 digits closes the
  connection silently, while the model reads it as a number. The limit depends
  on the interpreter version and on `sys.set_int_max_str_digits`, which lie
  outside `server.py`. For the same reason `Numerals.ParseDecimal` holds for
  every natural number, although `str(n)` raises beyond the limit; no body
  the builders measure comes near it.
- `unquote` and the `os.path.abspath` prefix test are parameters (`Env.unquote`,
  `Env.staysInRoot`). They depend on the current directory and on library
  code outside this model.
- The file system is a parameter, `Env.file`. It answers whether a path is a
  regular file and what reading it in binary mode and as text yields, newline
  translation of text-mode reads included. It is taken to be fixed for the
  life of a connection.
- JSON decoding, `json.dump`, and upload file naming from `datetime.now` and
  `md5(time.time())` are one parameter, `Env.upload`. It reports whether
  decoding or `json.loads` raised something other than `JSONDecodeError` (a
  body that is not UTF-8, JSON nested too deeply, ...), the body is not JSON,
  it was stored under a name, or saving failed. These
  are foreign and non-deterministic. The model's `Env.upload` is one fixed
  function per connection, so two identical bodies on one connection get the
  same name, whereas the source names each file from the clock.
- `get_http_date` is a parameter: one date string per connection
  (`Env.date`), where the server formats the clock anew for each response.
- `main`, the command line and `_setup_directories` are left out. They do not
  affect request handling.
- Connection.ClientHonest: assumes a date without CR, which `formatdate`
  always produces but which is a parameter here.

=== FILE: connection.dfy ===
/**
 The keep-alive loop of `handle_client`: one connection's sequence of
 `recv` results is cut into frames, each frame is parsed and answered, and
 the loop goes on while the last answer keeps the connection open and fewer
 than `max_requests_per_connection` requests have been counted.
 */
module Connection {
  import opened Wrappers
  import opened Text
  import opened Parser
  import opened Framer
  import opened Settings
  import opened Responses
  import opened Router

  /** What the loop calls: the receive loop for the frame starting at a
      position, `parse_request`, `handle_request` for a parsed request, and
      the response it sends for a frame that does not parse. */
  datatype Handler = Handler(
    read: nat -> Framing,
    parse: string -> Option<Request>,
    handle: Request -> Handled,
    rejection: Response)

  /** The server's own handler on a connection whose `recv` results are
      `input`: the framing rules, the parser, the router, and
      `build_error_response(400, "Bad Request")`. */
  function Live(cfg: Config, env: Env, input: seq<Recv>): Handler {
    Handler(
      (at: nat) => FrameAt(input, at),
      ParseRequest,
      req => HandleRequest(cfg, env, req),
      Render(Failure(400, ""), Close, env.date))
  }

  /** One turn of the loop that received a non-empty frame, and so was counted. */
  datatype Exchange = Exchange(
    at: nat,                   // position of the frame's first `recv` result
    end: nat,                  // position of the first `recv` result after it
    frame: string,
    stop: Stop,
    request: Option<Request>,  // `None` when the frame does not parse
    reply: Option<Response>,   // `None` when the handler raised
    directive: Option<Directive>)  // the connection type acted on; `None` when the handler raised

  /** Why the loop ended. */
  datatype Ending =
    | Limit           // the request count reached MaxRequests
    | Dropped(fault: Fault)  // receiving raised: a timeout or a bad Content-Length
    | Quiet           // the peer closed before sending anything more
    | Invalid         // the frame did not parse and was answered with 400
    | Crashed         // the handler raised and nothing was sent
    | Closing         // the handler said `close`, or the request was HTTP/1.0
    | PeerGone        // the peer closed after a request, which was answered
  {
    /** The endings decided by an exchange rather than by receiving. */
    predicate Answered() {
      Invalid? || Crashed? || Closing? || PeerGone?
    }
  }

  /** An exchange after which the loop reads again: the request was answered
      under the keep-alive connection type, was not HTTP/1.0, and the peer had
      not closed while sending it. */
  predicate KeptOpen(e: Exchange) {
    && e.request.Some? && e.reply.Some?
    && e.directive == Some(KeepAlive)
    && e.request.value.version != "HTTP/1.0"
    && e.stop != PeerClosed
  }

  /** One iteration of the loop body, after the count check. */
  datatype Step =
    | Again(e: Exchange, next: nat)
    | Over(exchanges: seq<Exchange>, ending: Ending, next: nat)

  /** The loop body once the frame `f`, read from position `at`, is in hand:
      count, parse, answer, and decide whether to go on. */
  function Turn(h: Handler, f: Framing, at: nat): (t: Step)
    ensures t.next == f.next
    ensures t.Again? ==> && KeptOpen(t.e) && t.e.at == at && t.e.end == f.next
                         && f == Framed(t.e.frame, t.e.stop, f.next)
    ensures t.Over? ==> |t.exchanges| <= 1 && !t.ending.Limit?
    ensures t.Over? ==> (|t.exchanges| == 1 <==> t.ending.Answered())
    ensures t.Over? && |t.exchanges| == 1 ==>
              && !KeptOpen(t.exchanges[0]) && t.exchanges[0].at == at && t.exchanges[0].end == f.next
              && f == Framed(t.exchanges[0].frame, t.exchanges[0].stop, f.next)
    ensures t.Over? && t.ending.Dropped? ==> f == Failed(t.ending.fault, f.next)
    ensures t.Over? && t.ending == Quiet ==> f.Framed? && f.data == ""
  {
    match f
    case Failed(fault, next) => Over([], Dropped(fault), next)
    case Framed(data, stop, next) =>
      if data == "" then Over([], Quiet, next)
      else
        match h.parse(data)
        case None => Over([Exchange(at, next, data, stop, None, Some(h.rejection), Some(Close))], Invalid, next)
        case Some(req) =>
          match h.handle(req)
          case Raised => Over([Exchange(at, next, data, stop, Some(req), None, None)], Crashed, next)
          case Reply(response, d) =>
            var e := Exchange(at, next, data, stop, Some(req), Some(response), Some(d));
            if d == Close || req.version == "HTTP/1.0" then Over([e], Closing, next)
            else if stop == PeerClosed then Over([e], PeerGone, next)
            else
              assert d == KeepAlive;
              Again(e, next)
  }

  /** A whole connection: the exchanges in order, why it ended, and the
      position of the first `recv` result left unread. */
  datatype Session = Session(exchanges: seq<Exchange>, ending: Ending, next: nat)

  /** The loop from position `at` with `served` requests already counted. */
  function Run(h: Handler, at: nat, served: nat): (s: Session)
    requires served <= MaxRequests
    decreases MaxRequests - served
    ensures served + |s.exchanges| <= MaxRequests
    ensures s.ending == Limit ==> served + |s.exchanges| == MaxRequests
  {
    if served == MaxRequests then Session([], Limit, at)
    else
      match Turn(h, h.read(at), at)
      case Over(exchanges, ending, next) => Session(exchanges, ending, next)
      case Again(e, next) =>
        var rest := Run(h, next, served + 1);
        Session([e] + rest.exchanges, rest.ending, rest.next)
  }

  /** `handle_client`: a fresh connection, read from its first `recv` result. */
  function HandleClient(cfg: Config, env: Env, input: seq<Recv>): Session {
    Run(Live(cfg, env, input), 0, 0)
  }

  /** One unfolding of the loop. */
  lemma RunUnfolds(h: Handler, at: nat, served: nat)
    requires served <= MaxRequests
    ensures served == MaxRequests ==> Run(h, at, served) == Session([], Limit, at)
    ensures served < MaxRequests && Turn(h, h.read(at), at).Over? ==>
              var t := Turn(h, h.read(at), at);
              Run(h, at, served) == Session(t.exchanges, t.ending, t.next)
    ensures served < MaxRequests && Turn(h, h.read(at), at).Again? ==>
              var t := Turn(h, h.read(at), at);
              var rest := Run(h, t.next, served + 1);
              Run(h, at, served) == Session([t.e] + rest.exchanges, rest.ending, rest.next)
  {
  }

  /** The loop goes on only after an exchange that kept the connection open,
      and it ends after one that did not exactly when that exchange decided
      the ending: otherwise receiving or the request limit did. */
  lemma {:induction false} RunKeepsOpen(h: Handler, at: nat, served: nat)
    requires served <= MaxRequests
    decreases MaxRequests - served
    ensures var ex := Run(h, at, served).exchanges;
            forall k :: 0 <= k < |ex| - 1 ==> KeptOpen(ex[k])
    ensures var s := Run(h, at, served);
            s.ending.Answered() <==> |s.exchanges| > 0 && !KeptOpen(s.exchanges[|s.exchanges| - 1])
  {
    RunUnfolds(h, at, served);
    if served < MaxRequests {
      var t := Turn(h, h.read(at), at);
      if t.Again? {
        RunKeepsOpen(h, t.next, served + 1);
        var rest := Run(h, t.next, served + 1);
        var ex := Run(h, at, served).exchanges;
        assert ex == [t.e] + rest.exchanges;
        forall k | 1 <= k < |ex| ensures ex[k] == rest.exchanges[k - 1] {
        }
      }
    }
  }

  /** The loop reads in order, without gaps or overlaps: the first frame is
      read where the loop starts, each next one where the previous one ended,
      every exchange holds the frame read at its position, and the session
      stops at the end of its last frame, or of the failed or empty read that
      ended it. */
  lemma {:induction false} RunReadsInOrder(h: Handler, at: nat, served: nat)
    requires served <= MaxRequests
    decreases MaxRequests - served
    ensures var s := Run(h, at, served);
            var ex := s.exchanges;
            && (|ex| > 0 ==> ex[0].at == at)
            && (forall k :: 0 <= k < |ex| - 1 ==> ex[k + 1].at == ex[k].end)
            && (forall k :: 0 <= k < |ex| ==> h.read(ex[k].at) == Framed(ex[k].frame, ex[k].stop, ex[k].end))
            && (var last := if |ex| == 0 then at else ex[|ex| - 1].end;
                && (s.ending == Limit || s.ending.Answered() ==> s.next == last)
                && (s.ending.Dropped? ==> h.read(last) == Failed(s.ending.fault, s.next))
                && (s.ending == Quiet ==> h.read(last).Framed? && h.read(last).data == ""
                                          && h.read(last).next == s.next))
  {
    RunUnfolds(h, at, served);
    if served < MaxRequests {
      var t := Turn(h, h.read(at), at);
      if t.Again? {
        RunReadsInOrder(h, t.next, served + 1);
        var rest := Run(h, t.next, served + 1);
        var ex := Run(h, at, served).exchanges;
        assert ex == [t.e] + rest.exchanges;
        forall k | 1 <= k < |ex| ensures ex[k] == rest.exchanges[k - 1] {
        }
      }
    }
  }

  /** A reader that, from a position within `bound`, never moves back or
      past `bound`, and moves on whenever it delivers a frame. */
  ghost predicate Bounded(h: Handler, bound: nat) {
    forall p: nat :: p <= bound ==>
      && p <= h.read(p).next <= bound
      && (h.read(p).Framed? ==> p < h.read(p).next)
  }

  /** With such a reader, every frame the loop reads, and the place it stops,
      lie within the bound. */
  lemma {:induction false} RunStaysWithin(h: Handler, bound: nat, at: nat, served: nat)
    requires served <= MaxRequests && at <= bound && Bounded(h, bound)
    decreases MaxRequests - served
    ensures var s := Run(h, at, served);
            && at <= s.next <= bound
            && forall k :: 0 <= k < |s.exchanges| ==> at <= s.exchanges[k].at < s.exchanges[k].end <= bound
  {
    RunUnfolds(h, at, served);
    if served < MaxRequests {
      var t := Turn(h, h.read(at), at);
      assert at <= t.next <= bound;
      if t.Again? {
        assert h.read(at) == Framed(t.e.frame, t.e.stop, t.e.end);
        RunStaysWithin(h, bound, t.next, served + 1);
        var rest := Run(h, t.next, served + 1);
        var ex := Run(h, at, served).exchanges;
        assert ex == [t.e] + rest.exchanges;
        forall k | 1 <= k < |ex| ensures ex[k] == rest.exchanges[k - 1] {
        }
      }
    }
  }

  /** What the server's answers promise a client: the wire form reads back,
      and the `Connection` field names the connection type the loop acts on. */
  predicate Honest(e: Exchange) {
    e.reply.Some? ==>
      && ReadsBack(e.reply.value)
      && e.directive.Some?
      && Value(e.reply.value.fields, "Connection") == Some(e.directive.value.Token())
  }

  /** The exchange holds the handler's answer to its frame: the parse of the
      frame, then either the rejection or what `handle` returned for the
      parsed request. */
  ghost predicate Answers(h: Handler, e: Exchange) {
    && e.request == h.parse(e.frame)
    && match e.request
       case None => e.reply == Some(h.rejection) && e.directive == Some(Close)
       case Some(req) =>
         match h.handle(req)
         case Raised => e.reply.None? && e.directive.None?
         case Reply(r, d) => e.reply == Some(r) && e.directive == Some(d)
  }

  lemma TurnAnswers(h: Handler, f: Framing, at: nat)
    ensures var t := Turn(h, f, at);
            && (t.Again? ==> Answers(h, t.e))
            && (t.Over? ==> forall k :: 0 <= k < |t.exchanges| ==> Answers(h, t.exchanges[k]))
  {
  }

  /** Every exchange of the loop holds the handler's answer to its frame. */
  lemma {:induction false} RunAnswers(h: Handler, at: nat, served: nat)
    requires served <= MaxRequests
    decreases MaxRequests - served
    ensures var ex := Run(h, at, served).exchanges;
            forall k :: 0 <= k < |ex| ==> Answers(h, ex[k])
  {
    RunUnfolds(h, at, served);
    if served < MaxRequests {
      var t := Turn(h, h.read(at), at);
      TurnAnswers(h, h.read(at), at);
      if t.Again? {
        RunAnswers(h, t.next, served + 1);
        var rest := Run(h, t.next, served + 1);
        var ex := Run(h, at, served).exchanges;
        assert ex == [t.e] + rest.exchanges;
        forall k | 1 <= k < |ex| ensures ex[k] == rest.exchanges[k - 1] {
        }
      }
    }
  }

  /** A parsed request path holds no CR: it has no whitespace at all. */
  lemma NoSpaceLacksReturn(s: string)
    requires NoSpace(s)
    ensures Lacks(s, '\r')
  {
  }

  /** The server's answer to a frame is honest whenever the date holds no CR. */
  lemma LiveAnswerHonest(cfg: Config, env: Env, input: seq<Recv>, e: Exchange)
    requires Lacks(env.date, '\r') && Answers(Live(cfg, env, input), e)
    ensures Honest(e)
  {
    match ParseRequest(e.frame) {
      case None =>
        RenderReadsBack(Failure(400, ""), Close, env.date);
      case Some(req) =>
        if HandleRequest(cfg, env, req).Reply? {
          NoSpaceLacksReturn(req.path);
          RepliesReadBack(cfg, env, req);
          ReplyAdvertisesDirective(cfg, env, req);
        }
    }
  }

  /** The server's reader stays within the input. */
  lemma LiveBounded(cfg: Config, env: Env, input: seq<Recv>)
    ensures Bounded(Live(cfg, env, input), |input|)
  {
  }

  /** A reader that frames `input`: from every position within it, it
      returns what the receive rules frame there. */
  ghost predicate ReadsFrom(h: Handler, input: seq<Recv>) {
    forall p: nat :: p <= |input| ==> h.read(p) == Frame(input, p)
  }

  /** At most MaxRequests requests are counted, and the frames are read from
      `input`, in order and within it. */
  predicate FramesOf(input: seq<Recv>, s: Session) {
    && |s.exchanges| <= MaxRequests
    && s.next <= |input|
    && forall k :: 0 <= k < |s.exchanges| ==>
         && s.exchanges[k].at < s.exchanges[k].end <= |input|
         && Frame(input, s.exchanges[k].at)
            == Framed(s.exchanges[k].frame, s.exchanges[k].stop, s.exchanges[k].end)
  }

  lemma RunFramesOf(h: Handler, input: seq<Recv>)
    requires Bounded(h, |input|) && ReadsFrom(h, input)
    ensures FramesOf(input, Run(h, 0, 0))
  {
    RunStaysWithin(h, |input|, 0, 0);
    RunReadsInOrder(h, 0, 0);
  }

  /** The server's reader frames its input. */
  lemma LiveReadsFrom(cfg: Config, env: Env, input: seq<Recv>)
    ensures ReadsFrom(Live(cfg, env, input), input)
  {
  }

  /** On a real connection at most MaxRequests requests are counted, and the
      frames are read from the start of the input, in order and within it. */
  lemma ClientReads(cfg: Config, env: Env, input: seq<Recv>)
    ensures FramesOf(input, HandleClient(cfg, env, input))
  {
    LiveBounded(cfg, env, input);
    LiveReadsFrom(cfg, env, input);
    RunFramesOf(Live(cfg, env, input), input);
  }

  /** Every answer the handler can give is honest. */
  ghost predicate AnswersHonest(h: Handler) {
    forall e :: Answers(h, e) ==> Honest(e)
  }

  /** Every exchange of a session is honest. */
  predicate AllHonest(ex: seq<Exchange>) {
    forall k :: 0 <= k < |ex| ==> Honest(ex[k])
  }

  /** A handler whose answers are honest keeps the whole session honest. */
  lemma RunHonest(h: Handler, at: nat, served: nat)
    requires served <= MaxRequests && AnswersHonest(h)
    ensures AllHonest(Run(h, at, served).exchanges)
  {
    RunAnswers(h, at, served);
  }

  lemma LiveAnswersHonest(cfg: Config, env: Env, input: seq<Recv>)
    requires Lacks(env.date, '\r')
    ensures AnswersHonest(Live(cfg, env, input))
  {
    forall e | Answers(Live(cfg, env, input), e) ensures Honest(e) {
      LiveAnswerHonest(cfg, env, input, e);
    }
  }

  /** On a real connection every answer sent is honest, provided the date
      holds no CR. */
  lemma ClientHonest(cfg: Config, env: Env, input: seq<Recv>)
    requires Lacks(env.date, '\r')
    ensures AllHonest(HandleClient(cfg, env, input).exchanges)
  {
    LiveAnswersHonest(cfg, env, input);
    RunHonest(Live(cfg, env, input), 0, 0);
  }

  /** An HTTP/1.0 request asking for `Connection: keep-alive` that passes the
      guards is answered with `Connection: keep-alive`, yet the loop closes
      the connection right after that answer. */
  lemma Http10KeepAliveCloses(h: Handler, cfg: Config, env: Env, at: nat, served: nat, req: Request)
    requires served < MaxRequests
    requires h.read(at).Framed? && h.read(at).data != "" && h.parse(h.read(at).data) == Some(req)
    requires h.handle == (r => HandleRequest(cfg, env, r))
    requires req.version == "HTTP/1.0" && Lower(HeaderOr(req.headers, "connection")) == "keep-alive"
    requires HandleRequest(cfg, env, req).Reply? && Refusal(cfg, env, req).None?
    ensures var s := Run(h, at, served);
            && |s.exchanges| == 1 && s.ending == Closing
            && s.exchanges[0].reply.Some?
            && Value(s.exchanges[0].reply.value.fields, "Connection") == Some("keep-alive")
  {
    RunUnfolds(h, at, served);
    MethodDispatch(cfg, env, req);
    ReplyAdvertisesDirective(cfg, env, req);
    assert h.handle(req) == HandleRequest(cfg, env, req);
  }
}

=== FILE: framer.dfy ===
/**
 Request framing: the receive loop at the top of `handle_client`, which
 appends `recv` results until a frame is complete, too large, or the peer
 has closed.
 */
module Framer {
  import opened Wrappers
  import opened Text
  import opened Numerals
  import opened Parser

  /** The accumulated size beyond which the loop stops reading (`len(request_data) > 8192`). */
  const SizeLimit: nat := 8192

  /** The buffer size passed to each `recv` call, an upper bound on one chunk. */
  const RecvSize: nat := 8192

  /** One `recv` result: the bytes returned (empty when the peer has closed),
      or the socket timeout firing. */
  datatype Recv = Chunk(bytes: string) | TimedOut

  /** Why the loop stopped with data in hand. */
  datatype Stop =
    | Complete    // header end seen and the body has reached Content-Length
    | Oversized   // more than SizeLimit bytes accumulated without completing
    | PeerClosed  // `recv` returned no bytes

  /** The exceptions that leave the loop. */
  datatype Fault =
    | Timeout            // `socket.timeout`, or no further input
    | BadContentLength   // `int()` raised on a Content-Length value

  /** The outcome of one run of the loop; `next` is the position of the first
      `recv` result it did not consume. */
  datatype Framing =
    | Framed(data: string, stop: Stop, next: nat)
    | Failed(fault: Fault, next: nat)

  function Payload(r: Recv): string {
    match r
    case Chunk(b) => b
    case TimedOut => ""
  }

  /** The bytes returned by the `recv` results at positions `i` up to `j`, in order. */
  function Bytes(input: seq<Recv>, i: nat, j: nat): string
    requires i <= j <= |input|
    decreases j - i
  {
    if j == i then "" else Bytes(input, i, j - 1) + Payload(input[j - 1])
  }

  /** A header line the loop reads a length from: it starts, case-insensitively, with `content-length:`. */
  predicate IsLengthLine(line: string) {
    StartsWith(Lower(line), "content-length:")
  }

  lemma LengthLineHasColon(line: string)
    requires IsLengthLine(line)
    ensures Contains(line, ":")
  {
    assert Lower(line)[..15][14] == ':';
    assert line[14..15] == ":";
    assert OccursAt(line, ":", 14);
    IndexOfMeaning(line, ":");
  }

  /** `int(line.split(':')[1].strip())`: the text between the first and the
      second colon, stripped and parsed; `None` when `int` raises. */
  function LineLength(line: string): Option<int>
    requires IsLengthLine(line)
  {
    LengthLineHasColon(line);
    ParseInt(Strip(Split(line, ":")[1]))
  }

  /** The loop over the header lines: the variable starts at `current`, each
      length line overwrites it, and the first unparsable value raises. */
  function LengthFrom(lines: seq<string>, current: int): Option<int>
    decreases |lines|
  {
    if |lines| == 0 then Some(current)
    else if IsLengthLine(lines[0]) then
      match LineLength(lines[0])
      case None => None
      case Some(v) => LengthFrom(lines[1..], v)
    else LengthFrom(lines[1..], current)
  }

  /** The declared Content-Length of a header block (default 0). */
  function ContentLength(lines: seq<string>): Option<int> {
    LengthFrom(lines, 0)
  }

  /** Line `i` is a length line whose value does not parse. */
  predicate BadLengthAt(lines: seq<string>, i: int) {
    0 <= i < |lines| && IsLengthLine(lines[i]) && LineLength(lines[i]).None?
  }

  lemma {:induction false} LengthFromRaises(lines: seq<string>, current: int)
    ensures LengthFrom(lines, current).None? <==> exists i :: BadLengthAt(lines, i)
  {
    if |lines| > 0 {
      var next := if IsLengthLine(lines[0]) && LineLength(lines[0]).Some?
                  then LineLength(lines[0]).value else current;
      if BadLengthAt(lines, 0) {
      } else {
        LengthFromRaises(lines[1..], next);
        if exists i :: BadLengthAt(lines, i) {
          var i :| BadLengthAt(lines, i);
          assert lines[1..][i - 1] == lines[i];
          assert BadLengthAt(lines[1..], i - 1);
        }
        if exists i :: BadLengthAt(lines[1..], i) {
          var i :| BadLengthAt(lines[1..], i);
          assert lines[1..][i] == lines[i + 1];
          assert BadLengthAt(lines, i + 1);
        }
      }
    }
  }

  /** The length loop raises exactly when some length line, wherever it
      stands, carries a value `int` rejects. */
  lemma ContentLengthRaises(lines: seq<string>)
    ensures ContentLength(lines).None? <==> exists i :: BadLengthAt(lines, i)
  {
    LengthFromRaises(lines, 0);
  }

  lemma {:induction false} LengthFromLastWins(lines: seq<string>, current: int, i: nat)
    requires i < |lines| && IsLengthLine(lines[i]) && LineLength(lines[i]).Some?
    requires forall j :: i < j < |lines| ==> !IsLengthLine(lines[j])
    requires forall j :: 0 <= j < i ==> !BadLengthAt(lines, j)
    ensures LengthFrom(lines, current) == LineLength(lines[i])
  {
    if i == 0 {
      LengthFromUnchanged(lines[1..], LineLength(lines[0]).value);
    } else {
      assert !BadLengthAt(lines, 0);
      var next := if IsLengthLine(lines[0]) then LineLength(lines[0]).value else current;
      assert lines[1..][i - 1] == lines[i];
      forall j | 0 <= j < i - 1
        ensures !BadLengthAt(lines[1..], j)
      {
        assert lines[1..][j] == lines[j + 1];
        assert !BadLengthAt(lines, j + 1);
      }
      LengthFromLastWins(lines[1..], next, i - 1);
    }
  }

  lemma {:induction false} LengthFromUnchanged(lines: seq<string>, current: int)
    requires forall j :: 0 <= j < |lines| ==> !IsLengthLine(lines[j])
    ensures LengthFrom(lines, current) == Some(current)
  {
    if |lines| > 0 {
      assert !IsLengthLine(lines[0]);
      LengthFromUnchanged(lines[1..], current);
    }
  }

  /** Last write wins: when no length line raises, the declared length is the
      value on the last length line. */
  lemma ContentLengthLastWins(lines: seq<string>, i: nat)
    requires i < |lines| && IsLengthLine(lines[i]) && LineLength(lines[i]).Some?
    requires forall j :: i < j < |lines| ==> !IsLengthLine(lines[j])
    requires forall j :: 0 <= j < i ==> !BadLengthAt(lines, j)
    ensures ContentLength(lines) == LineLength(lines[i])
  {
    LengthFromLastWins(lines, 0, i);
  }

  /** Without any length line the declared length is 0. */
  lemma ContentLengthDefault(lines: seq<string>)
    requires forall j :: 0 <= j < |lines| ==> !IsLengthLine(lines[j])
    ensures ContentLength(lines) == Some(0)
  {
    LengthFromUnchanged(lines, 0);
  }

  /** The Content-Length the loop computes for accumulated bytes whose header
      end has been seen: it reads every line before the first CRLFCRLF,
      request line included. */
  function Declared(data: string): Option<int> {
    ContentLength(HeadLines(data))
  }

  /** The check made after each chunk: `None` when computing the length
      raised, `Some(true)` when the header end is present and the bytes
      after it number at least the declared length. */
  function Verdict(data: string): Option<bool> {
    if IndexOf(data, HeaderEnd).None? then Some(false)
    else
      match Declared(data)
      case None => None
      case Some(n) => Some(|Body(data)| >= n)
  }

  /** A positive verdict means the header end is present and the bytes after
      it reach the declared length; a raising one means the header end is
      present and some length line does not parse. */
  lemma VerdictMeaning(data: string)
    ensures Verdict(data) == Some(true) <==>
              && IndexOf(data, HeaderEnd).Some?
              && Declared(data).Some?
              && |Body(data)| >= Declared(data).value
    ensures Verdict(data).None? <==>
              IndexOf(data, HeaderEnd).Some? && exists i :: BadLengthAt(HeadLines(data), i)
  {
    ContentLengthRaises(HeadLines(data));
  }

  /** The receive loop of one request, reading the `recv` results of a
      connection from position `at` on, having accumulated those from `start`
      to `at`, and asking `complete` after each chunk whether the frame is
      complete (`Some(true)`), incomplete (`Some(false)`) or raises (`None`).
      Input that runs out is taken to time out. */
  function Receive(complete: string -> Option<bool>, input: seq<Recv>, start: nat, at: nat): (r: Framing)
    requires start <= at <= |input|
    decreases |input| - at
    ensures at <= r.next <= |input|
    ensures r.Framed? ==> && at < r.next
                          && (forall k :: at <= k < r.next ==> input[k].Chunk?)
                          && r.data == Bytes(input, start, r.next)
    ensures r.Framed? && r.stop == PeerClosed ==> input[r.next - 1] == Chunk("")
    ensures r.Framed? && r.stop == Complete ==> complete(r.data) == Some(true)
    ensures r.Framed? && r.stop == Oversized ==> |r.data| > SizeLimit && complete(r.data) == Some(false)
    ensures r.Failed? && r.fault == BadContentLength ==>
              at < r.next && complete(Bytes(input, start, r.next)).None?
    ensures r.Failed? && r.fault == Timeout ==>
              || (r.next == |input| && forall k :: at <= k < |input| ==> ReadsOn(complete, input, start, k))
              || (at < r.next && input[r.next - 1] == TimedOut)
  {
    if at == |input| then Failed(Timeout, at)
    else
      match input[at]
      case TimedOut => Failed(Timeout, at + 1)
      case Chunk(c) =>
        var data := Bytes(input, start, at + 1);
        if |c| == 0 then Framed(data, PeerClosed, at + 1)
        else
          match complete(data)
          case None => Failed(BadContentLength, at + 1)
          case Some(true) => Framed(data, Complete, at + 1)
          case Some(false) =>
            if |data| > SizeLimit then Framed(data, Oversized, at + 1)
            else Receive(complete, input, start, at + 1)
  }

  /** A request that arrives whole in the last `recv` result is framed, not
      taken for a timeout. */
  lemma LastChunkFrames(complete: string -> Option<bool>, c: string)
    requires |c| > 0 && complete(c) == Some(true)
    ensures Receive(complete, [Chunk(c)], 0, 0) == Framed(c, Complete, 1)
  {
    assert Bytes([Chunk(c)], 0, 1) == "" + c == c;
  }

  /** One request's framing, starting at position `at` with nothing
      accumulated and completed by the server's check. */
  function Frame(input: seq<Recv>, at: nat): Framing
    requires at <= |input|
  {
    Receive(Verdict, input, at, at)
  }

  /** The framing of a request read from position `at`, for any position:
      there is nothing to read past the end of the input, which times out. */
  function FrameAt(input: seq<Recv>, at: nat): (r: Framing)
    ensures at <= |input| ==> r == Frame(input, at) && at <= r.next <= |input|
    ensures at <= |input| && r.Framed? ==> at < r.next
    ensures at > |input| ==> r == Failed(Timeout, at)
  {
    if at <= |input| then Frame(input, at) else Failed(Timeout, at)
  }

  /** The chunk at `k` was non-empty and left the bytes accumulated from
      `start` incomplete and within the size limit: no stop condition holds. */
  predicate ReadsOn(complete: string -> Option<bool>, input: seq<Recv>, start: nat, k: nat)
    requires start <= k < |input|
  {
    && input[k].Chunk? && |input[k].bytes| > 0
    && complete(Bytes(input, start, k + 1)) == Some(false)
    && |Bytes(input, start, k + 1)| <= SizeLimit
  }

  /** When the loop reads on past position `at`, no stop condition held after
      the chunk at `at`, and the rest is read as if starting one place later. */
  lemma ReceiveContinues(complete: string -> Option<bool>, input: seq<Recv>, start: nat, at: nat)
    requires start <= at <= |input|
    requires at + 1 < Receive(complete, input, start, at).next
    ensures at < |input| && ReadsOn(complete, input, start, at)
    ensures Receive(complete, input, start, at) == Receive(complete, input, start, at + 1)
  {
  }

  /** The loop stops at the first chunk after which a stop condition holds:
      every chunk before the last one consumed was non-empty and left the
      frame incomplete and within the size limit. */
  lemma {:induction false} ReceiveStopsAtFirstBoundary(complete: string -> Option<bool>, input: seq<Recv>,
                                                       start: nat, at: nat, k: nat)
    requires start <= at <= |input|
    requires at <= k && k + 1 < Receive(complete, input, start, at).next
    ensures k < |input| && ReadsOn(complete, input, start, k)
    decreases |input| - at
  {
    ReceiveContinues(complete, input, start, at);
    if k > at {
      ReceiveStopsAtFirstBoundary(complete, input, start, at + 1, k);
    }
  }

  /** With `recv(8192)` returning at most 8192 bytes, a frame never exceeds
      twice that: the loop stops as soon as the limit is passed. */
  lemma {:induction false} FrameSizeBound(complete: string -> Option<bool>, input: seq<Recv>, start: nat, at: nat)
    requires start <= at <= |input|
    requires |Bytes(input, start, at)| <= SizeLimit
    requires forall i :: 0 <= i < |input| ==> |Payload(input[i])| <= RecvSize
    ensures var r := Receive(complete, input, start, at);
            r.Framed? ==> |r.data| <= SizeLimit + RecvSize
    decreases |input| - at
  {
    if at < |input| && input[at].Chunk? && |Bytes(input, start, at + 1)| <= SizeLimit {
      FrameSizeBound(complete, input, start, at + 1);
    }
  }
}

=== FILE: numerals.dfy ===
/**
 Decimal numerals: Python's `str(n)` for a non-negative integer, and `int(s)`
 for base-10 text that has already been stripped of surrounding whitespace.
 */
module Numerals {
  import opened Wrappers

  predicate IsDigit(c: char) {
    '0' <= c <= '9'
  }

  predicate AllDigits(s: string) {
    forall i :: 0 <= i < |s| ==> IsDigit(s[i])
  }

  function DigitChar(d: nat): (c: char)
    requires d < 10
    ensures IsDigit(c)
  {
    ('0' as int + d) as char
  }

  function DigitValue(c: char): (d: nat)
    requires IsDigit(c)
    ensures d < 10
  {
    c as int - '0' as int
  }

  /** `str(n)`: the shortest decimal numeral of `n`. */
  function Decimal(n: nat): (s: string)
    ensures |s| > 0 && AllDigits(s)
    ensures |s| > 1 ==> s[0] != '0'
  {
    if n < 10 then [DigitChar(n)] else Decimal(n / 10) + [DigitChar(n % 10)]
  }

  /** The value of a string of decimal digits, most significant first. */
  function DigitsValue(s: string): nat
    requires AllDigits(s)
  {
    if |s| == 0 then 0 else 10 * DigitsValue(s[..|s| - 1]) + DigitValue(s[|s| - 1])
  }

  lemma {:induction false} DecimalValue(n: nat)
    ensures DigitsValue(Decimal(n)) == n
  {
    if n >= 10 {
      var s := Decimal(n);
      assert s[..|s| - 1] == Decimal(n / 10);
      DecimalValue(n / 10);
    }
  }

  predicate DigitsOrUnderscores(s: string) {
    forall i :: 0 <= i < |s| ==> IsDigit(s[i]) || s[i] == '_'
  }

  /** Python's grammar for the digits of an integer: `digit ("_"? digit)*`. */
  predicate WellFormedDigits(s: string) {
    && |s| > 0
    && IsDigit(s[0])
    && DigitsOrUnderscores(s)
    && forall i :: 0 <= i < |s| && s[i] == '_' ==> i + 1 < |s| && IsDigit(s[i + 1])
  }

  /** The digits of a well-formed numeral with its underscores dropped. */
  function Undivided(s: string): (r: string)
    requires DigitsOrUnderscores(s)
    ensures AllDigits(r)
    ensures AllDigits(s) ==> r == s
  {
    if |s| == 0 then ""
    else if s[0] == '_' then Undivided(s[1..])
    else [s[0]] + Undivided(s[1..])
  }

  /** `int(s)` in base 10, `None` standing for the ValueError: an optional
      sign followed by a well-formed digit string. */
  function ParseInt(s: string): (r: Option<int>)
    ensures r.Some? ==> |s| > 0 && (IsDigit(s[0]) || s[0] == '+' || s[0] == '-')
    ensures r.Some? && s[0] != '-' ==> r.value >= 0
  {
    var signed := |s| > 0 && (s[0] == '+' || s[0] == '-');
    var digits := if signed then s[1..] else s;
    if !WellFormedDigits(digits) then None
    else
      var v: int := DigitsValue(Undivided(digits));
      Some(if signed && s[0] == '-' then -v else v)
  }

  /** `int(str(n)) == n`. */
  lemma ParseDecimal(n: nat)
    ensures ParseInt(Decimal(n)) == Some(n)
  {
    DecimalValue(n);
  }
}

=== FILE: parser.dfy ===
/**
 The request parser of server.py (`parse_request`): splits a received frame
 into request line, header map and body.
 */
module Parser {
  import opened Wrappers
  import opened Text

  const CRLF: string := "\r\n"
  const HeaderEnd: string := "\r\n\r\n"

  /** A parsed request: the dictionary `parse_request` returns. */
  datatype Request = Request(
    httpMethod: string,
    path: string,
    version: string,
    headers: map<string, string>,
    body: string)

  /** The header block: everything before the first CRLFCRLF, or all of `data` when there is none. */
  function Head(data: string): string {
    match IndexOf(data, HeaderEnd)
    case None => data
    case Some(i) => data[..i]
  }

  /** The body: everything after the first CRLFCRLF, or nothing when there is none. */
  function Body(data: string): string {
    match IndexOf(data, HeaderEnd)
    case None => ""
    case Some(i) => data[i + |HeaderEnd|..]
  }

  /** The lines of the header block, request line first. */
  function HeadLines(data: string): seq<string> {
    Split(Head(data), CRLF)
  }

  /** The text before the first CRLF of the whole frame. */
  function FirstLine(data: string): string {
    match IndexOf(data, CRLF)
    case None => data
    case Some(i) => data[..i]
  }

  /** The first line of the header block is the first line of the frame: a
      CRLFCRLF always starts with the frame's first CRLF or comes after it. */
  lemma HeadStartsWithFirstLine(data: string)
    ensures HeadLines(data)[0] == FirstLine(data)
  {
    match IndexOf(data, HeaderEnd)
    case None =>
    case Some(j) =>
      IndexOfMeaning(data, HeaderEnd);
      IndexOfMeaning(data, CRLF);
      assert OccursAt(data, CRLF, j) by {
        assert data[j..j + 2] == data[j..j + 4][..2];
      }
      var k := IndexOf(data, CRLF).value;
      IndexOfPrefix(data, CRLF, j);
      if k + 2 > j {
        assert data[j] == data[j..j + 4][0] == '\r';
        assert data[k + 1] == data[k..k + 2][1] == '\n';
        assert k == j;
      }
  }

  /** A header line is one that contains a colon. */
  predicate HasColon(line: string) {
    Contains(line, ":")
  }

  /** The dictionary key of a header line: the text before its first colon,
      stripped and lower-cased. */
  function HeaderKey(line: string): string
    requires HasColon(line)
  {
    var i := IndexOf(line, ":").value;
    Lower(Strip(line[..i]))
  }

  /** The dictionary value of a header line: the text after its first colon, stripped. */
  function HeaderValue(line: string): string
    requires HasColon(line)
  {
    var i := IndexOf(line, ":").value;
    Strip(line[i + 1..])
  }

  /** One turn of the header loop: a line with a colon overwrites its key. */
  function AddHeader(m: map<string, string>, line: string): map<string, string> {
    if HasColon(line) then m[HeaderKey(line) := HeaderValue(line)] else m
  }

  /** The header dictionary built by the loop over the lines after the request line. */
  function HeaderMap(lines: seq<string>): map<string, string>
    decreases |lines|
  {
    if |lines| == 0 then map[]
    else AddHeader(HeaderMap(lines[..|lines| - 1]), lines[|lines| - 1])
  }

  /** Line `i` is a header line whose key is `k`. */
  predicate KeyedAt(lines: seq<string>, i: int, k: string) {
    0 <= i < |lines| && HasColon(lines[i]) && HeaderKey(lines[i]) == k
  }

  /** A later line never removes a key. */
  lemma AddHeaderKeeps(m: map<string, string>, line: string, k: string)
    requires k in m
    ensures k in AddHeader(m, line)
  {
  }

  /** Every header line leaves its key in the map. */
  lemma {:induction false} HeaderMapHasLineKey(lines: seq<string>, i: nat)
    requires i < |lines| && HasColon(lines[i])
    ensures HeaderKey(lines[i]) in HeaderMap(lines)
  {
    var n := |lines| - 1;
    if i < n {
      var init := lines[..n];
      assert init[i] == lines[i];
      HeaderMapHasLineKey(init, i);
      AddHeaderKeeps(HeaderMap(init), lines[n], HeaderKey(lines[i]));
    }
  }

  /** Every key in the map comes from some header line. */
  lemma {:induction false} HeaderMapKeyHasLine(lines: seq<string>, k: string)
    requires k in HeaderMap(lines)
    ensures exists i :: KeyedAt(lines, i, k)
  {
    var n := |lines| - 1;
    var init := lines[..n];
    if !KeyedAt(lines, n, k) {
      assert k in HeaderMap(init);
      HeaderMapKeyHasLine(init, k);
      var i :| KeyedAt(init, i, k);
      assert init[i] == lines[i];
      assert KeyedAt(lines, i, k);
    }
  }

  /** The keys of the header map are exactly the keys of the lines that have a colon. */
  lemma HeaderMapDomain(lines: seq<string>, k: string)
    ensures k in HeaderMap(lines) <==> exists i :: KeyedAt(lines, i, k)
  {
    if k in HeaderMap(lines) {
      HeaderMapKeyHasLine(lines, k);
    }
    if exists i :: KeyedAt(lines, i, k) {
      var i :| KeyedAt(lines, i, k);
      HeaderMapHasLineKey(lines, i);
    }
  }

  /** Later duplicates overwrite earlier ones: the value stored under a key is
      the value of the last line that carries that key. */
  lemma {:induction false} HeaderMapLastWins(lines: seq<string>, i: nat)
    requires i < |lines| && HasColon(lines[i])
    requires forall j :: i < j < |lines| && HasColon(lines[j]) ==> HeaderKey(lines[j]) != HeaderKey(lines[i])
    ensures HeaderKey(lines[i]) in HeaderMap(lines)
    ensures HeaderMap(lines)[HeaderKey(lines[i])] == HeaderValue(lines[i])
  {
    var init := lines[..|lines| - 1];
    if i < |lines| - 1 {
      assert init[i] == lines[i];
      forall j | i < j < |init| && HasColon(init[j])
        ensures HeaderKey(init[j]) != HeaderKey(init[i])
      {
        assert init[j] == lines[j];
      }
      HeaderMapLastWins(init, i);
    }
  }

  /** Appending two empty lines before joining ends the text with two separators. */
  lemma {:induction false} JoinBlankPair(xs: seq<string>, sep: string)
    requires |xs| > 0
    ensures Join(xs + ["", ""], sep) == Join(xs, sep) + sep + sep
  {
    if |xs| == 1 {
      assert xs + ["", ""] == [xs[0], "", ""];
      assert Join(["", ""], sep) == "" + sep + Join([""], sep);
    } else {
      assert (xs + ["", ""])[1..] == xs[1..] + ["", ""];
      JoinBlankPair(xs[1..], sep);
    }
  }

  /** In CRLF-joined non-empty lines without CRs, every CR is a separator and
      is followed, two places on, by the first character of a line. */
  lemma {:induction false} JoinedCarriageReturns(xs: seq<string>)
    requires |xs| > 0
    requires forall i :: 0 <= i < |xs| ==> |xs[i]| > 0 && Lacks(xs[i], '\r')
    ensures forall q :: 0 <= q < |Join(xs, CRLF)| && Join(xs, CRLF)[q] == '\r' ==>
              q + 2 < |Join(xs, CRLF)| && Join(xs, CRLF)[q + 2] != '\r'
  {
    var t := Join(xs, CRLF);
    var x := xs[0];
    if |xs| > 1 {
      var rest := Join(xs[1..], CRLF);
      assert t == x + CRLF + rest;
      JoinedCarriageReturns(xs[1..]);
      assert |rest| > 0 && rest[0] == xs[1][0] by { JoinStartsWithFirst(xs[1..], CRLF); }
      forall q | 0 <= q < |t| && t[q] == '\r'
        ensures q + 2 < |t| && t[q + 2] != '\r'
      {
        if q == |x| {
          assert t[q + 2] == rest[0];
        } else if q > |x| + 1 {
          var p := q - |x| - 2;
          assert rest[p] == t[q] == '\r';
          assert p + 2 < |rest| && rest[p + 2] != '\r';
          assert t[q + 2] == rest[p + 2];
        }
      }
    } else {
      assert t == x;
    }
  }

  /** The text of a message whose header block holds `lines`: the lines
      joined by CRLF after appending two empty lines, then the body. */
  function FrameText(lines: seq<string>, body: string): string {
    Join(lines + ["", ""], CRLF) + body
  }

  /** A header block in which every CR is followed, two places on, by a
      character other than CR holds no CRLFCRLF, so the first one of the
      text is the one appended after it. */
  lemma FirstHeaderEnd(h: string, body: string)
    requires forall q :: 0 <= q < |h| && h[q] == '\r' ==> q + 2 < |h| && h[q + 2] != '\r'
    ensures IndexOf(h + HeaderEnd + body, HeaderEnd) == Some(|h|)
  {
    var w := h + HeaderEnd + body;
    assert OccursAt(w, HeaderEnd, |h|) by {
      assert w[|h|..|h| + 4] == HeaderEnd;
    }
    forall p | 0 <= p < |h|
      ensures !OccursAt(w, HeaderEnd, p)
    {
      assert w[p] == h[p];
      if h[p] == '\r' {
        assert w[p + 2] == h[p + 2];
      }
    }
    IndexOfIs(w, HeaderEnd, |h|);
  }

  /** When the lines are non-empty and free of CRs, the text splits back: the
      first CRLFCRLF is the one after the last line, the header block is
      exactly the lines, and what follows it is exactly the body. */
  lemma FrameSplits(lines: seq<string>, body: string)
    requires |lines| > 0
    requires forall i :: 0 <= i < |lines| ==> |lines[i]| > 0 && Lacks(lines[i], '\r')
    ensures IndexOf(FrameText(lines, body), HeaderEnd) == Some(|Join(lines, CRLF)|)
    ensures HeadLines(FrameText(lines, body)) == lines
    ensures Body(FrameText(lines, body)) == body
  {
    var h := Join(lines, CRLF);
    JoinBlankPair(lines, CRLF);
    var w := FrameText(lines, body);
    assert w == h + HeaderEnd + body;
    JoinedCarriageReturns(lines);
    FirstHeaderEnd(h, body);
    assert w[..|h|] == h;
    assert w[|h| + 4..] == body;
    assert Unbroken(lines, CRLF) by {
      forall i, j | 0 <= i < |lines| && 0 <= j < |lines[i]|
        ensures lines[i][j] != CRLF[0]
      {
      }
    }
    SplitJoin(lines, CRLF);
  }

  /** `parse_request`: `None` unless the request line has exactly three
      whitespace-separated tokens; otherwise the upper-cased method, the path
      and version tokens, the header map of the remaining header lines, and
      the bytes after the first CRLFCRLF as body. */
  function ParseRequest(data: string): (r: Option<Request>)
    ensures r.Some? <==> |Words(FirstLine(data))| == 3
    ensures r.Some? ==> var w := Words(FirstLine(data));
                        && r.value.httpMethod == Upper(w[0])
                        && r.value.path == w[1]
                        && r.value.version == w[2]
    ensures r.Some? ==> r.value.headers == HeaderMap(HeadLines(data)[1..])
    ensures r.Some? ==> forall i :: FirstAt(data, HeaderEnd, i) ==> r.value.body == data[i + 4..]
    ensures r.Some? && !Occurs(data, HeaderEnd) ==> r.value.body == ""
    ensures r.Some? ==> |r.value.path| > 0 && NoSpace(r.value.path) && NoSpace(r.value.version)
  {
    HeadStartsWithFirstLine(data);
    IndexOfMeaning(data, HeaderEnd);
    var lines := HeadLines(data);
    var w := Words(lines[0]);
    if |w| != 3 then None
    else Some(Request(Upper(w[0]), w[1], w[2], HeaderMap(lines[1..]), Body(data)))
  }

  /** The text of a request: the words of the request line joined by blanks,
      the header lines, a blank line, and the body. */
  function RequestText(words: seq<string>, fields: seq<string>, body: string): string {
    FrameText([Join(words, " ")] + fields, body)
  }

  /** Parsing inverts writing: a request line of three words, header lines
      that are non-empty and free of CRs, and any body parse back to those
      words (the method upper-cased), the header map of those lines, and
      exactly that body, even when the body itself holds a CRLFCRLF. */
  lemma ParseRequestRoundTrip(m: string, p: string, v: string, fields: seq<string>, body: string)
    requires |m| > 0 && NoSpace(m) && |p| > 0 && NoSpace(p) && |v| > 0 && NoSpace(v)
    requires forall i :: 0 <= i < |fields| ==> |fields[i]| > 0 && Lacks(fields[i], '\r')
    ensures ParseRequest(RequestText([m, p, v], fields, body))
            == Some(Request(Upper(m), p, v, HeaderMap(fields), body))
  {
    var line := Join([m, p, v], " ");
    assert [m, p, v][1..] == [p, v] && [p, v][1..] == [v];
    assert Join([p, v], " ") == p + " " + v;
    assert line == m + " " + (p + " " + v);
    assert Lacks(line, '\r') by {
      assert Lacks(m, '\r') && Lacks(p, '\r') && Lacks(v, '\r');
      LacksConcat(p, " ", '\r');
      LacksConcat(p + " ", v, '\r');
      LacksConcat(m, " ", '\r');
      LacksConcat(m + " ", p + " " + v, '\r');
    }
    var lines := [line] + fields;
    FrameSplits(lines, body);
    WordsOfJoin([m, p, v]);
    assert lines[1..] == fields;
  }
}

=== FILE: paths.dfy ===
/**
 `validate_path`: the traversal guard applied to every request path before
 dispatch. Percent-decoding (`unquote`) and the canonical-prefix test
 (`os.path.abspath` of the path joined to the resources directory against
 `os.path.abspath` of the directory) are supplied by the caller.
 */
module Paths {
  import opened Text

  /** The substrings that reject a decoded path outright, in the order they are tried. */
  const Blocklist: seq<string> := ["..", "./", "\\", "//", "\\\\"]

  /** Some blocklisted pattern occurs in `decoded`. */
  predicate Blocked(decoded: string) {
    exists i :: 0 <= i < |Blocklist| && Contains(decoded, Blocklist[i])
  }

  /** The name handed to the canonical-prefix test: one leading slash removed
      when there is more behind it, then any remaining leading slashes. */
  function RootRelative(decoded: string): string {
    var test := if StartsWith(decoded, "/") && |decoded| > 1 then decoded[1..] else decoded;
    StripLeading(test, '/')
  }

  /** `validate_path(path)`. `staysInRoot(p)` says whether the canonical form
      of `resources/p` lies under the canonical resources directory (false
      also when computing it raises). */
  function ValidatePath(path: string, unquote: string -> string, staysInRoot: string -> bool): bool {
    var decoded := unquote(path);
    if Blocked(decoded) then false
    else if decoded == "/" || decoded == "" then true
    else staysInRoot(RootRelative(decoded))
  }

  /** A pattern `p` occurs in `s` at some position. */
  lemma ContainsAt(s: string, p: string, i: nat)
    requires OccursAt(s, p, i)
    ensures Contains(s, p)
  {
    IndexOfMeaning(s, p);
  }

  /** Position `i` of `d` starts a backslash or one of the two-character
      patterns `..`, `./` and `//`. */
  predicate BadAt(d: string, i: int) {
    0 <= i < |d| && (d[i] == '\\' || (i + 1 < |d| && d[i..i + 2] in {"..", "./", "//"}))
  }

  /** The rejection is exactly the four two- or one-character patterns: the
      doubled backslash adds nothing to the single one. */
  lemma BlockedMeaning(d: string)
    ensures Blocked(d) <==> exists i :: BadAt(d, i)
  {
    if Blocked(d) {
      var k :| 0 <= k < |Blocklist| && Contains(d, Blocklist[k]);
      var i := IndexOf(d, Blocklist[k]).value;
      IndexOfMeaning(d, Blocklist[k]);
      assert d[i..i + |Blocklist[k]|] == Blocklist[k];
      assert d[i] == Blocklist[k][0];
      assert BadAt(d, i);
    }
    if exists i :: BadAt(d, i) {
      var i :| BadAt(d, i);
      if d[i] == '\\' {
        assert d[i..i + 1] == Blocklist[2];
        ContainsAt(d, Blocklist[2], i);
      } else if d[i..i + 2] == ".." {
        ContainsAt(d, Blocklist[0], i);
      } else if d[i..i + 2] == "./" {
        ContainsAt(d, Blocklist[1], i);
      } else {
        ContainsAt(d, Blocklist[3], i);
      }
    }
  }

  /** A blocked decoded path is refused, whatever the prefix test says. */
  lemma BlockedRefused(path: string, unquote: string -> string, staysInRoot: string -> bool)
    requires Blocked(unquote(path))
    ensures !ValidatePath(path, unquote, staysInRoot)
  {
  }

  /** The empty path and the root are accepted without consulting the prefix test. */
  lemma RootAccepted(path: string, unquote: string -> string, staysInRoot: string -> bool)
    requires unquote(path) == "" || unquote(path) == "/"
    ensures ValidatePath(path, unquote, staysInRoot)
  {
    var d := unquote(path);
    BlockedMeaning(d);
    if d == "/" {
      assert forall i :: 0 <= i < |d| ==> d[i] == '/';
      assert forall i :: !BadAt(d, i);
    }
  }

  /** Any other path is accepted exactly when the prefix test accepts the
      decoded path without its leading slash. Because a doubled slash is
      already refused, stripping further slashes never changes that name. */
  lemma OtherPathChecked(path: string, unquote: string -> string, staysInRoot: string -> bool)
    requires !Blocked(unquote(path)) && unquote(path) != "" && unquote(path) != "/"
    ensures var d := unquote(path);
            ValidatePath(path, unquote, staysInRoot) == staysInRoot(if d[0] == '/' then d[1..] else d)
  {
    var d := unquote(path);
    var test := if d[0] == '/' then d[1..] else d;
    assert StartsWith(d, "/") <==> d[0] == '/';
    assert !(|test| > 0 && test[0] == '/') by {
      BlockedMeaning(d);
      if d[0] == '/' && |d| > 1 {
        assert d[0..2] == [d[0], d[1]];
        assert d[1] == '/' ==> BadAt(d, 0);
      }
    }
    assert RootRelative(d) == test;
  }
}

=== FILE: pool.dfy ===
/**
 The connection queue and the `active_threads` counter of `ThreadPool`, as a
 sequential state machine: each step is one action of the accepting thread
 (`submit`) or of one worker thread (`_worker`), taken atomically.
 */
module ThreadPool {
  /** `submit` turns a connection away once this many are waiting. */
  const QueueLimit: nat := 50

  /** Where a worker thread is in its loop: waiting on the queue, or serving
      the connection it took. */
  datatype Worker<C> = Idle | Serving(conn: C)

  /** The waiting connections, oldest first; the workers; and the
      `active_threads` counter. */
  datatype Pool<C> = Pool(queue: seq<C>, workers: seq<Worker<C>>, active: int)

  /** The number of workers serving a connection. */
  function Busy<C>(workers: seq<Worker<C>>): nat
    decreases |workers|
  {
    if |workers| == 0 then 0
    else Busy(workers[..|workers| - 1]) + (if workers[|workers| - 1].Serving? then 1 else 0)
  }

  /** 1 for a worker serving a connection, 0 for an idle one. */
  function Count<C>(w: Worker<C>): nat {
    if w.Serving? then 1 else 0
  }

  /** Changing one worker changes the count by that worker's difference. */
  lemma {:induction false} BusyUpdate<C>(workers: seq<Worker<C>>, i: nat, w: Worker<C>)
    requires i < |workers|
    ensures Busy(workers[i := w]) == Busy(workers) - Count(workers[i]) + Count(w)
    decreases |workers|
  {
    var n := |workers| - 1;
    var updated := workers[i := w];
    assert updated[..n] == if i < n then workers[..n][i := w] else workers[..n];
    if i < n {
      BusyUpdate(workers[..n], i, w);
    }
  }

  /** A pool of only idle workers has none busy. */
  lemma {:induction false} BusyIdle<C>(workers: seq<Worker<C>>)
    requires forall i :: 0 <= i < |workers| ==> workers[i].Idle?
    ensures Busy(workers) == 0
    decreases |workers|
  {
    if |workers| > 0 {
      BusyIdle(workers[..|workers| - 1]);
    }
  }

  /** The queue is within its limit and the counter equals the number of
      workers serving a connection. */
  predicate Valid<C>(p: Pool<C>) {
    |p.queue| <= QueueLimit && p.active == Busy(p.workers)
  }

  /** `ThreadPool.__init__`: `n` idle workers, an empty queue and no active thread. */
  function Start<C>(n: nat): (p: Pool<C>)
    ensures Valid(p) && |p.workers| == n && p.queue == [] && p.active == 0
    ensures forall i :: 0 <= i < n ==> p.workers[i].Idle?
  {
    var workers := seq(n, _ => Idle);
    BusyIdle(workers);
    Pool([], workers, 0)
  }

  /** What `submit` did with a connection. */
  datatype Admission<C> = Admission(pool: Pool<C>, accepted: bool)

  /** `ThreadPool.submit`: with 50 or more connections waiting the new one is
      closed and the pool is left as it was; otherwise it joins the tail of
      the queue. */
  function Submit<C>(p: Pool<C>, c: C): (r: Admission<C>)
    ensures r.accepted <==> |p.queue| < QueueLimit
    ensures r.pool.workers == p.workers && r.pool.active == p.active
    ensures r.accepted ==> r.pool.queue == p.queue + [c]
    ensures !r.accepted ==> r.pool.queue == p.queue
  {
    if |p.queue| >= QueueLimit then Admission(p, false)
    else Admission(p.(queue := p.queue + [c]), true)
  }

  /** One pass of an idle worker through `get(timeout=1)`: with nothing
      waiting it times out and loops (`Empty`); otherwise it takes the oldest
      connection and increments the counter under the lock. */
  function Take<C>(p: Pool<C>, w: nat): (r: Pool<C>)
    requires w < |p.workers| && p.workers[w].Idle?
    ensures |r.workers| == |p.workers|
    ensures |p.queue| == 0 ==> r == p
    ensures |p.queue| > 0 ==> && r.queue == p.queue[1..]
                              && r.workers == p.workers[w := Serving(p.queue[0])]
                              && r.active == p.active + 1
  {
    if |p.queue| == 0 then p
    else p.(queue := p.queue[1..], workers := p.workers[w := Serving(p.queue[0])], active := p.active + 1)
  }

  /** The end of a serving worker's pass: whether `handle_client` returned
      (`raised` false) or raised (`raised` true), the counter is decremented
      under the lock exactly once and the worker goes back to the queue. */
  function Finish<C>(p: Pool<C>, w: nat, raised: bool): (r: Pool<C>)
    requires w < |p.workers| && p.workers[w].Serving?
    ensures r.queue == p.queue && r.workers == p.workers[w := Idle]
    ensures r.active == p.active - 1
  {
    p.(workers := p.workers[w := Idle], active := p.active - 1)
  }

  /** Every step keeps the pool valid: the queue never exceeds its limit and
      the counter keeps counting the busy workers. */
  lemma SubmitValid<C>(p: Pool<C>, c: C)
    requires Valid(p)
    ensures Valid(Submit(p, c).pool)
  {
  }

  lemma TakeValid<C>(p: Pool<C>, w: nat)
    requires Valid(p) && w < |p.workers| && p.workers[w].Idle?
    ensures Valid(Take(p, w))
  {
    if |p.queue| > 0 {
      BusyUpdate(p.workers, w, Serving(p.queue[0]));
    }
  }

  lemma FinishValid<C>(p: Pool<C>, w: nat, raised: bool)
    requires Valid(p) && w < |p.workers| && p.workers[w].Serving?
    ensures Valid(Finish(p, w, raised))
  {
    BusyUpdate(p.workers, w, Idle);
  }

  /** A worker's full cycle — take a connection, serve it, finish with or
      without an exception — restores the counter and the worker, and
      removes exactly the oldest waiting connection. */
  lemma WorkerCycle<C>(p: Pool<C>, w: nat, raised: bool)
    requires w < |p.workers| && p.workers[w].Idle? && |p.queue| > 0
    ensures var q := Take(p, w);
            q.workers[w] == Serving(p.queue[0])
            && var r := Finish(q, w, raised);
               && r.active == p.active
               && r.workers == p.workers
               && r.queue == p.queue[1..]
  {
    var q := Take(p, w);
    assert Finish(q, w, raised).workers == p.workers;
  }

  /** One scheduled action: a connection arriving at `submit`, worker `w`
      reaching `get`, or worker `w` leaving `handle_client`. An action of a
      worker that is not at that point of its loop does nothing. */
  datatype Event<C> = Arrive(conn: C) | Dequeue(worker: nat) | Done(worker: nat, raised: bool)

  /** The pool after a schedule, with the connections accepted, rejected and
      taken by workers, each in order. */
  datatype Trace<C> = Trace(pool: Pool<C>, accepted: seq<C>, rejected: seq<C>, taken: seq<C>)

  function Step<C>(t: Trace<C>, e: Event<C>): Trace<C> {
    var p := t.pool;
    match e
    case Arrive(c) =>
      var a := Submit(p, c);
      if a.accepted then t.(pool := a.pool, accepted := t.accepted + [c])
      else t.(pool := a.pool, rejected := t.rejected + [c])
    case Dequeue(w) =>
      if w < |p.workers| && p.workers[w].Idle? && |p.queue| > 0 then
        t.(pool := Take(p, w), taken := t.taken + [p.queue[0]])
      else t
    case Done(w, raised) =>
      if w < |p.workers| && p.workers[w].Serving? then t.(pool := Finish(p, w, raised))
      else t
  }

  /** The pool after the schedule `events`, starting from `p`. */
  function Run<C>(p: Pool<C>, events: seq<Event<C>>): Trace<C>
    decreases |events|
  {
    if |events| == 0 then Trace(p, [], [], [])
    else Step(Run(p, events[..|events| - 1]), events[|events| - 1])
  }

  /** The number of arrivals in a schedule. */
  function Arrivals<C>(events: seq<Event<C>>): nat
    decreases |events|
  {
    if |events| == 0 then 0
    else Arrivals(events[..|events| - 1]) + (if events[|events| - 1].Arrive? then 1 else 0)
  }

  /** The accounting a trace from `p` keeps: a valid pool with the same
      workers, and the connections waiting at the start followed by those
      accepted are those taken followed by those still waiting. */
  ghost predicate Conserves<C>(p: Pool<C>, t: Trace<C>) {
    && Valid(t.pool)
    && |t.pool.workers| == |p.workers|
    && p.queue + t.accepted == t.taken + t.pool.queue
  }

  /** Every step keeps that accounting, and adds one accepted or rejected
      connection exactly for an arrival. */
  lemma StepConserves<C>(p: Pool<C>, t: Trace<C>, e: Event<C>)
    requires Conserves(p, t)
    ensures Conserves(p, Step(t, e))
    ensures |Step(t, e).accepted| + |Step(t, e).rejected|
            == |t.accepted| + |t.rejected| + (if e.Arrive? then 1 else 0)
  {
    var q := t.pool;
    match e {
      case Arrive(c) =>
        SubmitValid(q, c);
        if |q.queue| < QueueLimit {
          assert p.queue + (t.accepted + [c]) == (p.queue + t.accepted) + [c];
          assert t.taken + (q.queue + [c]) == (t.taken + q.queue) + [c];
        }
      case Dequeue(w) =>
        if w < |q.workers| && q.workers[w].Idle? && |q.queue| > 0 {
          TakeValid(q, w);
          assert q.queue == [q.queue[0]] + q.queue[1..];
          assert (t.taken + [q.queue[0]]) + q.queue[1..] == t.taken + q.queue;
        }
      case Done(w, raised) =>
        if w < |q.workers| && q.workers[w].Serving? {
          FinishValid(q, w, raised);
        }
    }
  }

  /** Over any schedule the pool stays valid, every arrival is either
      accepted or rejected, and the queue is first-in first-out: the
      connections waiting at the start followed by those accepted are exactly
      those taken by workers followed by those still waiting, in order. */
  lemma {:induction false} RunConserves<C>(p: Pool<C>, events: seq<Event<C>>)
    requires Valid(p)
    ensures Conserves(p, Run(p, events))
    ensures |Run(p, events).accepted| + |Run(p, events).rejected| == Arrivals(events)
    decreases |events|
  {
    if |events| > 0 {
      var init := events[..|events| - 1];
      RunConserves(p, init);
      StepConserves(p, Run(p, init), events[|events| - 1]);
    }
  }

  /** A connection is turned away only while 50 are waiting: no rejection
      while there is room. */
  lemma RejectsOnlyWhenFull<C>(t: Trace<C>, c: C)
    ensures |Step(t, Arrive(c)).rejected| == |t.rejected| + 1 <==> |t.pool.queue| >= QueueLimit
    ensures |Step(t, Arrive(c)).accepted| == |t.accepted| + 1 <==> |t.pool.queue| < QueueLimit
  {
  }
}

=== FILE: responses.dfy ===
/**
 The three response builders of server.py and the bytes they put on the
 wire: a status line, header lines, a blank line and the body.
 */
module Responses {
  import opened Wrappers
  import opened Text
  import opened Numerals
  import opened Parser
  import opened Framer
  import opened Settings

  /** The `connection_type` a handler settles on. */
  datatype Directive = KeepAlive | Close {
    /** The value sent in the `Connection` header. */
    function Token(): string {
      match this
      case KeepAlive => "keep-alive"
      case Close => "close"
    }
  }

  datatype Field = Field(name: string, value: string)

  /** A response before serialisation; the version is always HTTP/1.1. */
  datatype Response = Response(status: nat, reason: string, fields: seq<Field>, body: string)

  const ServerName: string := "Multi-threaded HTTP Server"

  /** The `Keep-Alive` value: `timeout=30, max=100`. */
  function KeepAliveValue(): string {
    "timeout=" + Decimal(KeepAliveTimeout) + ", max=" + Decimal(MaxRequests)
  }

  /** The parameters are the server's settings: `timeout=30, max=100`. */
  lemma KeepAliveSettings()
    ensures KeepAliveValue() == "timeout=30, max=100"
  {
    assert Decimal(30) == Decimal(3) + [DigitChar(0)];
    assert Decimal(100) == Decimal(10) + [DigitChar(0)];
    assert Decimal(10) == Decimal(1) + [DigitChar(0)];
  }

  /** The value of the first field called `name`. */
  function Value(fields: seq<Field>, name: string): Option<string> {
    if |fields| == 0 then None
    else if fields[0].name == name then Some(fields[0].value)
    else Value(fields[1..], name)
  }

  /** The first field called `name` is at position `i`. */
  lemma {:induction false} ValueAt(fields: seq<Field>, name: string, i: nat)
    requires i < |fields| && fields[i].name == name
    requires forall j :: 0 <= j < i ==> fields[j].name != name
    ensures Value(fields, name) == Some(fields[i].value)
  {
    if i > 0 {
      assert fields[1..][i - 1] == fields[i];
      ValueAt(fields[1..], name, i - 1);
    }
  }

  /** No field is called `name`. */
  lemma {:induction false} ValueAbsent(fields: seq<Field>, name: string)
    requires forall j :: 0 <= j < |fields| ==> fields[j].name != name
    ensures Value(fields, name) == None
  {
    if |fields| > 0 {
      assert forall j :: 0 <= j < |fields| - 1 ==> fields[1..][j] == fields[j + 1];
      ValueAbsent(fields[1..], name);
    }
  }

  predicate Has(fields: seq<Field>, name: string) {
    Value(fields, name).Some?
  }

  /** The fields every builder ends with: date, server name, connection
      directive, and the keep-alive parameters when the directive is keep-alive. */
  function Trailer(date: string, directive: Directive): seq<Field> {
    [Field("Date", date), Field("Server", ServerName), Field("Connection", directive.Token())]
      + (if directive == KeepAlive then [Field("Keep-Alive", KeepAliveValue())] else [])
  }

  /** A field before the trailer never shadows one of the trailer's fields. */
  lemma {:induction false} ValueSkips(pre: seq<Field>, rest: seq<Field>, name: string)
    requires forall j :: 0 <= j < |pre| ==> pre[j].name != name
    ensures Value(pre + rest, name) == Value(rest, name)
  {
    if |pre| > 0 {
      assert pre[0].name != name;
      assert (pre + rest)[1..] == pre[1..] + rest;
      assert forall j :: 0 <= j < |pre| - 1 ==> pre[1..][j] == pre[j + 1];
      ValueSkips(pre[1..], rest, name);
    } else {
      assert pre + rest == rest;
    }
  }

  /** After leading fields with other names, the trailer supplies the date,
      the server name, the directive and, under keep-alive only, the
      keep-alive parameters; there is no `Retry-After`. */
  lemma TrailerFields(pre: seq<Field>, date: string, directive: Directive)
    requires forall j :: 0 <= j < |pre| ==> pre[j].name !in {"Date", "Server", "Connection", "Keep-Alive", "Retry-After"}
    ensures var fields := pre + Trailer(date, directive);
            && Value(fields, "Date") == Some(date) && Value(fields, "Server") == Some(ServerName)
            && Value(fields, "Connection") == Some(directive.Token())
            && (Has(fields, "Keep-Alive") <==> directive == KeepAlive)
            && (directive == KeepAlive ==> Value(fields, "Keep-Alive") == Some(KeepAliveValue()))
            && !Has(fields, "Retry-After")
  {
    var t := Trailer(date, directive);
    ValueSkips(pre, t, "Date");
    ValueSkips(pre, t, "Server");
    ValueSkips(pre, t, "Connection");
    ValueSkips(pre, t, "Keep-Alive");
    ValueSkips(pre, t, "Retry-After");
    ValueAt(t, "Date", 0);
    ValueAt(t, "Server", 1);
    ValueAt(t, "Connection", 2);
    if directive == KeepAlive { ValueAt(t, "Keep-Alive", 3); } else { ValueAbsent(t, "Keep-Alive"); }
    ValueAbsent(t, "Retry-After");
  }

  /** `build_response`: a text body with the given content type. */
  function BuildResponse(status: nat, reason: string, body: string, contentType: string,
                         directive: Directive, date: string): (r: Response)
    ensures r.status == status && r.reason == reason && r.body == body
    ensures Value(r.fields, "Content-Type") == Some(contentType)
    ensures Value(r.fields, "Content-Length") == Some(Decimal(|r.body|))
    ensures Value(r.fields, "Connection") == Some(directive.Token())
    ensures Value(r.fields, "Date") == Some(date) && Value(r.fields, "Server") == Some(ServerName)
    ensures Has(r.fields, "Keep-Alive") <==> directive == KeepAlive
    ensures directive == KeepAlive ==> Value(r.fields, "Keep-Alive") == Some(KeepAliveValue())
    ensures !Has(r.fields, "Retry-After")
  {
    var pre := [Field("Content-Type", contentType), Field("Content-Length", Decimal(|body|))];
    var fields := pre + Trailer(date, directive);
    ValueAt(fields, "Content-Type", 0);
    ValueAt(fields, "Content-Length", 1);
    TrailerFields(pre, date, directive);
    Response(status, reason, fields, body)
  }

  /** `build_binary_response`: a 200 that hands the file over as an attachment. */
  function BuildBinaryResponse(data: string, filename: string, directive: Directive,
                               date: string): (r: Response)
    ensures r.status == 200 && r.reason == "OK" && r.body == data
    ensures Value(r.fields, "Content-Type") == Some("application/octet-stream")
    ensures Value(r.fields, "Content-Length") == Some(Decimal(|r.body|))
    ensures Value(r.fields, "Content-Disposition") == Some("attachment; filename=\"" + filename + "\"")
    ensures Value(r.fields, "Connection") == Some(directive.Token())
    ensures Value(r.fields, "Date") == Some(date) && Value(r.fields, "Server") == Some(ServerName)
    ensures Has(r.fields, "Keep-Alive") <==> directive == KeepAlive
    ensures directive == KeepAlive ==> Value(r.fields, "Keep-Alive") == Some(KeepAliveValue())
    ensures !Has(r.fields, "Retry-After")
  {
    var pre := [ Field("Content-Type", "application/octet-stream"),
                 Field("Content-Length", Decimal(|data|)),
                 Field("Content-Disposition", "attachment; filename=\"" + filename + "\"")];
    var fields := pre + Trailer(date, directive);
    ValueAt(fields, "Content-Type", 0);
    ValueAt(fields, "Content-Length", 1);
    ValueAt(fields, "Content-Disposition", 2);
    TrailerFields(pre, date, directive);
    Response(200, "OK", fields, data)
  }

  /** The fixed pieces of the error page template, between the places where
      the title, the message and the server name go. */
  const PageOpen: string := "<!DOCTYPE html>\n<html>\n<head>\n    <title>"
  const PageStyle: string :=
    "</title>\n"
    + "    <style>\n"
    + "        body { font-family: Arial, sans-serif; margin: 50px; }\n"
    + "        h1 { color: #d32f2f; }\n"
    + "        p { color: #666; }\n"
    + "    </style>\n</head>\n<body>\n"
    + "    <h1>"
  const PageMessage: string := "</h1>\n    <p>"
  const PageFooter: string := "</p>\n    <hr>\n    <p><em>"
  const PageClose: string := "</em></p>\n</body>\n</html>"

  /** The HTML page of an error response: the template with the status line
      text in the title and the heading, and the message in a paragraph. */
  function ErrorPage(status: nat, reason: string, message: string): string {
    var title := Decimal(status) + " " + reason;
    PageOpen + title + PageStyle + title + PageMessage + message + PageFooter + ServerName + PageClose
  }

  /** The fields of an error response whose page is `length` bytes long. */
  function ErrorFields(length: nat, status: nat, directive: Directive, date: string): seq<Field> {
    [ Field("Content-Type", "text/html; charset=utf-8"),
      Field("Content-Length", Decimal(length)),
      Field("Date", date),
      Field("Server", ServerName),
      Field("Connection", directive.Token())]
    + (if status == 503 then [Field("Retry-After", "30")] else [])
  }

  /** What each field of an error response says. */
  lemma ErrorFieldValues(length: nat, status: nat, directive: Directive, date: string)
    ensures var fields := ErrorFields(length, status, directive, date);
            && Value(fields, "Content-Type") == Some("text/html; charset=utf-8")
            && Value(fields, "Content-Length") == Some(Decimal(length))
            && Value(fields, "Date") == Some(date) && Value(fields, "Server") == Some(ServerName)
            && Value(fields, "Connection") == Some(directive.Token())
            && !Has(fields, "Keep-Alive")
            && Value(fields, "Retry-After") == (if status == 503 then Some("30") else None)
  {
    var fields := ErrorFields(length, status, directive, date);
    ValueAt(fields, "Content-Type", 0);
    ValueAt(fields, "Content-Length", 1);
    ValueAt(fields, "Date", 2);
    ValueAt(fields, "Server", 3);
    ValueAt(fields, "Connection", 4);
    ValueAbsent(fields, "Keep-Alive");
    if status == 503 { ValueAt(fields, "Retry-After", 5); } else { ValueAbsent(fields, "Retry-After"); }
  }

  /** `build_error_response`: an HTML page naming the status and the message;
      never a `Keep-Alive` field, and `Retry-After: 30` exactly for 503. */
  function BuildErrorResponse(status: nat, reason: string, message: string,
                              directive: Directive, date: string): (r: Response)
    ensures r.status == status && r.reason == reason && r.body == ErrorPage(status, reason, message)
    ensures Value(r.fields, "Content-Type") == Some("text/html; charset=utf-8")
    ensures Value(r.fields, "Content-Length") == Some(Decimal(|r.body|))
    ensures Value(r.fields, "Date") == Some(date) && Value(r.fields, "Server") == Some(ServerName)
    ensures Value(r.fields, "Connection") == Some(directive.Token())
    ensures !Has(r.fields, "Keep-Alive")
    ensures Has(r.fields, "Retry-After") <==> status == 503
    ensures status == 503 ==> Value(r.fields, "Retry-After") == Some("30")
  {
    var body := ErrorPage(status, reason, message);
    var fields := ErrorFields(|body|, status, directive, date);
    ErrorFieldValues(|body|, status, directive, date);
    Response(status, reason, fields, body)
  }

  /** `HTTP/1.1 <code> <reason>` */
  function StatusLine(r: Response): string {
    "HTTP/1.1 " + Decimal(r.status) + " " + r.reason
  }

  function FieldLine(f: Field): string {
    f.name + ": " + f.value
  }

  /** The status line followed by one line per field. */
  function HeaderLines(r: Response): seq<string> {
    [StatusLine(r)] + seq(|r.fields|, i requires 0 <= i < |r.fields| => FieldLine(r.fields[i]))
  }

  /** The bytes sent: the lines joined by CRLF after appending two empty
      lines, then the body. */
  function Wire(r: Response): string {
    FrameText(HeaderLines(r), r.body)
  }

  /** A field that holds no CR and whose name has no colon and is not as
      long as `Content-Length`, so it can never be read as one. */
  predicate PlainField(f: Field) {
    && Lacks(f.name, '\r') && Lacks(f.value, '\r')
    && Lacks(f.name, ':') && |f.name| != |"Content-Length"|
  }

  /** The shape every builder produces, given header text without carriage
      returns: Content-Length is the second field and carries the body size,
      and every other field is plain. */
  predicate Conventional(r: Response) {
    && Lacks(r.reason, '\r')
    && |r.fields| >= 2
    && r.fields[1] == Field("Content-Length", Decimal(|r.body|))
    && forall i :: 0 <= i < |r.fields| && i != 1 ==> PlainField(r.fields[i])
  }

  /** Every header line of a conventional response is non-empty and free of CRs. */
  lemma HeaderLinesClean(r: Response)
    requires Conventional(r)
    ensures forall i :: 0 <= i < |HeaderLines(r)| ==>
              |HeaderLines(r)[i]| > 0 && Lacks(HeaderLines(r)[i], '\r')
  {
    var ls := HeaderLines(r);
    var d := Decimal(r.status);
    assert Lacks(d, '\r') by {
      forall i | 0 <= i < |d| ensures d[i] != '\r' { assert IsDigit(d[i]); }
    }
    assert Lacks(ls[0], '\r') by {
      forall i | 0 <= i < |ls[0]| ensures ls[0][i] != '\r' {
        assert ls[0] == "HTTP/1.1 " + d + " " + r.reason;
        if 9 <= i < 9 + |d| { assert ls[0][i] == d[i - 9]; }
        if i >= 10 + |d| { assert ls[0][i] == r.reason[i - 10 - |d|]; }
      }
    }
    DecimalClean(|r.body|);
    forall k | 1 <= k < |ls| ensures |ls[k]| > 0 && Lacks(ls[k], '\r') {
      var f := r.fields[k - 1];
      assert ls[k] == f.name + ": " + f.value;
      forall i | 0 <= i < |ls[k]| ensures ls[k][i] != '\r' {
        if i < |f.name| { assert ls[k][i] == f.name[i]; }
        if i >= |f.name| + 2 { assert ls[k][i] == f.value[i - |f.name| - 2]; }
      }
    }
  }

  /** A conventional response reads back through the server's own framing
      rules: its header block ends at the first CRLFCRLF, which the header
      lines themselves never contain, the header block splits back into the
      lines, and what follows is exactly the body. */
  lemma WireSplits(r: Response)
    requires Conventional(r)
    ensures IndexOf(Wire(r), HeaderEnd) == Some(|Join(HeaderLines(r), CRLF)|)
    ensures HeadLines(Wire(r)) == HeaderLines(r)
    ensures Body(Wire(r)) == r.body
  {
    HeaderLinesClean(r);
    FrameSplits(HeaderLines(r), r.body);
  }

  /** A field whose name is not fourteen characters long, or holds no colon,
      is never taken for a Content-Length line. */
  lemma OtherFieldNotLength(name: string, value: string)
    requires Lacks(name, ':') && |name| != |"Content-Length"|
    ensures !IsLengthLine(name + ": " + value)
  {
    var line := name + ": " + value;
    var k := if |name| > 14 then 14 else |name|;
    assert Lower(line)[k] == LowerChar(line[k]);
    if |name| > 14 {
      assert line[k] == name[14];
    } else {
      assert line[k] == ':';
    }
    NotStartsWith(Lower(line), "content-length:", k);
  }

  /** The Content-Length field the builders write is a Content-Length line. */
  lemma LengthFieldIsLengthLine(d: string)
    ensures IsLengthLine(FieldLine(Field("Content-Length", d)))
  {
    var line := FieldLine(Field("Content-Length", d));
    assert line[..15] == "Content-Length:";
    forall k | 0 <= k < 15
      ensures Lower(line)[k] == "content-length:"[k]
    {
      assert line[k] == "Content-Length:"[k];
    }
    assert Lower(line)[..15] == "content-length:";
  }

  /** Its text after the colon splits off as one piece: the numeral with one
      leading blank. */
  lemma LengthFieldSplit(d: string)
    requires Lacks(d, ':')
    ensures Split(FieldLine(Field("Content-Length", d)), ":") == ["Content-Length", " " + d]
  {
    var line := FieldLine(Field("Content-Length", d));
    var rest := line[15..];
    assert rest == " " + d;
    assert Lacks(rest, ':') by {
      forall i | 0 <= i < |rest| ensures rest[i] != ':' {
        if i > 0 { assert rest[i] == d[i - 1]; }
      }
    }
    assert OccursAt(line, ":", 14) by { assert line[14..15] == ":"; }
    forall j | 0 <= j < 14 ensures !OccursAt(line, ":", j) {
      assert line[j..j + 1][0] == line[j];
    }
    IndexOfIs(line, ":", 14);
    IndexOfMeaning(rest, ":");
    assert Split(rest, ":") == [rest];
    assert line[..14] == "Content-Length";
  }

  /** The value of the builders' Content-Length field reads back as the number written. */
  lemma LengthFieldReadsBack(n: nat)
    ensures IsLengthLine(FieldLine(Field("Content-Length", Decimal(n))))
    ensures LineLength(FieldLine(Field("Content-Length", Decimal(n)))) == Some(n)
  {
    var d := Decimal(n);
    LengthFieldIsLengthLine(d);
    assert Lacks(d, ':') by {
      forall i | 0 <= i < |d| ensures d[i] != ':' { assert IsDigit(d[i]); }
    }
    LengthFieldSplit(d);
    StripOneBlank(d);
    ParseDecimal(n);
  }

  /** The round trip through the server's own framing: a conventional
      response declares exactly its body length, and the receive loop's
      completion test accepts its wire form. */
  lemma ResponseDeclaresBody(r: Response)
    requires Conventional(r)
    ensures Declared(Wire(r)) == Some(|r.body|)
    ensures Verdict(Wire(r)) == Some(true)
  {
    WireSplits(r);
    var ls := HeaderLines(r);
    LengthFieldReadsBack(|r.body|);
    assert ls[2] == FieldLine(r.fields[1]);
    assert !IsLengthLine(ls[0]) by {
      assert Lower(ls[0])[0] == LowerChar(ls[0][0]) == 'h';
      NotStartsWith(Lower(ls[0]), "content-length:", 0);
    }
    forall j | 1 <= j < |ls| && j != 2
      ensures !IsLengthLine(ls[j])
    {
      var f := r.fields[j - 1];
      assert ls[j] == FieldLine(f);
      OtherFieldNotLength(f.name, f.value);
    }
    ContentLengthLastWins(ls, 2);
  }

  lemma DecimalClean(n: nat)
    ensures Lacks(Decimal(n), '\r') && Lacks(Decimal(n), ':')
  {
    var d := Decimal(n);
    forall i | 0 <= i < |d| ensures d[i] != '\r' && d[i] != ':' { assert IsDigit(d[i]); }
  }

  lemma TrailerClean(date: string, directive: Directive)
    requires Lacks(date, '\r')
    ensures forall i :: 0 <= i < |Trailer(date, directive)| ==> PlainField(Trailer(date, directive)[i])
  {
    DecimalClean(KeepAliveTimeout);
    DecimalClean(MaxRequests);
    var a := Decimal(KeepAliveTimeout);
    var b := Decimal(MaxRequests);
    assert KeepAliveValue() == ("timeout=" + a) + (", max=" + b);
    LacksConcat("timeout=", a, '\r');
    LacksConcat(", max=", b, '\r');
    LacksConcat("timeout=" + a, ", max=" + b, '\r');
    DatePlain(date);
    ServerPlain();
    ConnectionPlain(directive);
  }

  /** What the framing rules read back from a conventional response: its
      header lines, its body, and a completion verdict. */
  lemma ResponseReadsBack(r: Response)
    requires Conventional(r)
    ensures HeadLines(Wire(r)) == HeaderLines(r)
    ensures Body(Wire(r)) == r.body
    ensures Verdict(Wire(r)) == Some(true)
  {
    WireSplits(r);
    ResponseDeclaresBody(r);
  }

  /** `build_response` writes a conventional response whenever its header text holds no CR. */
  lemma BuildResponseConventional(status: nat, reason: string, body: string, contentType: string,
                                  directive: Directive, date: string)
    requires Lacks(reason, '\r') && Lacks(contentType, '\r') && Lacks(date, '\r')
    ensures Conventional(BuildResponse(status, reason, body, contentType, directive, date))
  {
    var r := BuildResponse(status, reason, body, contentType, directive, date);
    DecimalClean(|body|);
    TrailerClean(date, directive);
    assert forall i :: 2 <= i < |r.fields| ==> r.fields[i] == Trailer(date, directive)[i - 2];
  }

  lemma BuildBinaryResponseConventional(data: string, filename: string, directive: Directive, date: string)
    requires Lacks(filename, '\r') && Lacks(date, '\r')
    ensures Conventional(BuildBinaryResponse(data, filename, directive, date))
  {
    var r := BuildBinaryResponse(data, filename, directive, date);
    var disposition := "attachment; filename=\"" + filename + "\"";
    var head := [ Field("Content-Type", "application/octet-stream"),
                  Field("Content-Length", Decimal(|data|)),
                  Field("Content-Disposition", disposition)];
    var trailer := Trailer(date, directive);
    assert r.fields == head + trailer;
    TrailerClean(date, directive);
    LacksConcat("attachment; filename=\"", filename, '\r');
    LacksConcat("attachment; filename=\"" + filename, "\"", '\r');
    OctetStreamPlain();
    DispositionPlain(disposition);
    forall i | 0 <= i < |r.fields| && i != 1 ensures PlainField(r.fields[i]) {
      if i >= 3 {
        assert r.fields[i] == trailer[i - 3];
      }
    }
  }

  lemma OctetStreamPlain()
    ensures PlainField(Field("Content-Type", "application/octet-stream"))
  {
    assert Lacks("Content-Type", '\r');
    assert Lacks("Content-Type", ':');
    assert Lacks("application/octet-stream", '\r');
  }

  lemma DispositionPlain(disposition: string)
    requires Lacks(disposition, '\r')
    ensures PlainField(Field("Content-Disposition", disposition))
  {
    assert Lacks("Content-Disposition", '\r');
    assert Lacks("Content-Disposition", ':');
  }

  lemma BuildErrorResponseConventional(status: nat, reason: string, message: string,
                                       directive: Directive, date: string)
    requires Lacks(reason, '\r') && Lacks(date, '\r')
    ensures Conventional(BuildErrorResponse(status, reason, message, directive, date))
  {
    var r := BuildErrorResponse(status, reason, message, directive, date);
    ErrorFieldsPlain(|r.body|, status, directive, date);
  }

  lemma ErrorFieldsPlain(length: nat, status: nat, directive: Directive, date: string)
    requires Lacks(date, '\r')
    ensures var fs := ErrorFields(length, status, directive, date);
            forall i :: 0 <= i < |fs| && i != 1 ==> PlainField(fs[i])
  {
    HtmlTypePlain();
    DatePlain(date);
    ServerPlain();
    ConnectionPlain(directive);
    RetryAfterPlain();
  }

  lemma HtmlTypePlain()
    ensures PlainField(Field("Content-Type", "text/html; charset=utf-8"))
  {
    assert Lacks("Content-Type", '\r');
    assert Lacks("Content-Type", ':');
    assert Lacks("text/html; charset=utf-8", '\r');
  }

  lemma DatePlain(date: string)
    requires Lacks(date, '\r')
    ensures PlainField(Field("Date", date))
  {
    assert Lacks("Date", '\r');
    assert Lacks("Date", ':');
  }

  lemma ServerPlain()
    ensures PlainField(Field("Server", ServerName))
  {
    assert Lacks("Server", '\r');
    assert Lacks("Server", ':');
    assert Lacks(ServerName, '\r');
  }

  lemma ConnectionPlain(directive: Directive)
    ensures PlainField(Field("Connection", directive.Token()))
  {
    assert Lacks("Connection", '\r');
    assert Lacks("Connection", ':');
    assert Lacks("keep-alive", '\r') && Lacks("close", '\r');
  }

  lemma RetryAfterPlain()
    ensures PlainField(Field("Retry-After", "30"))
  {
    assert Lacks("Retry-After", '\r');
    assert Lacks("Retry-After", ':');
    assert Lacks("30", '\r');
  }
}

=== FILE: router.dfy ===
/**
 `handle_request` with the GET and POST handlers it dispatches to. The file
 system, the JSON codec with the upload store, percent-decoding, the
 canonical-prefix test and the clock are supplied in an `Env`.
 */
module Router {
  import opened Wrappers
  import opened Text
  import opened Numerals
  import opened Parser
  import opened Settings
  import opened Responses
  import opened Paths
  import opened Framer

  /** What the file system says about a path: not an existing regular file,
      or a file together with the results of reading it in binary mode and
      as UTF-8 text (`None` when that read raises). */
  datatype FileStatus =
    | NotAFile
    | File(binary: Option<string>, text: Option<string>)

  /** How the POST body fares: decoding it or `json.loads` raised something
      other than `JSONDecodeError`, which escapes the handler (a body that is
      not UTF-8, JSON nested past the recursion limit, an integer literal past
      the digit limit, ...); it is not JSON; it was stored under a generated
      file name; or writing the file raised. */
  datatype Upload =
    | Raises
    | InvalidJson
    | Saved(filename: string)
    | SaveFailed

  datatype Env = Env(
    unquote: string -> string,
    staysInRoot: string -> bool,
    file: string -> FileStatus,
    upload: string -> Upload,
    date: string)

  /** What `handle_request` does: return a response with the connection
      directive, or raise out of the handler. */
  datatype Handled = Reply(response: Response, directive: Directive) | Raised

  /** `headers.get(key, '')` */
  function HeaderOr(headers: map<string, string>, key: string): string {
    if key in headers then headers[key] else ""
  }

  /** The six Host values the server answers to. */
  function ValidHosts(cfg: Config): seq<string> {
    var port := Decimal(cfg.port);
    [cfg.host + ":" + port, "localhost:" + port, "127.0.0.1:" + port, cfg.host, "localhost", "127.0.0.1"]
  }

  /** The connection directive: an explicit `Connection: close` or
      `Connection: keep-alive` (in any case) wins; otherwise HTTP/1.1 keeps
      the connection alive and every other version closes it. */
  function ResolveDirective(req: Request): (d: Directive)
    ensures Lower(HeaderOr(req.headers, "connection")) == "close" ==> d == Close
    ensures Lower(HeaderOr(req.headers, "connection")) == "keep-alive" ==> d == KeepAlive
    ensures Lower(HeaderOr(req.headers, "connection")) !in {"close", "keep-alive"} ==>
              (d == KeepAlive <==> req.version == "HTTP/1.1")
  {
    var connection := Lower(HeaderOr(req.headers, "connection"));
    if connection == "close" then Close
    else if connection == "keep-alive" then KeepAlive
    else if req.version == "HTTP/1.1" then KeepAlive
    else Close
  }

  /** `os.path.join('resources', p.lstrip('/'))` */
  function FilePath(p: string): string {
    "resources/" + StripLeading(p, '/')
  }

  /** The position of the last `/`, or -1. */
  function LastSlash(p: string): int {
    match LastIndex(p, '/')
    case None => -1
    case Some(i) => i
  }

  /** `os.path.basename(p)` */
  function Basename(p: string): string {
    p[LastSlash(p) + 1..]
  }

  /** `os.path.splitext(p)[1]`: from the last dot of the last path component
      to the end, unless nothing but dots precedes that dot in the component. */
  function Extension(p: string): (ext: string)
    ensures |ext| <= |p| && ext == p[|p| - |ext|..]
    ensures ext == "" || ext[0] == '.'
    ensures forall i :: 0 <= i < |ext| ==> ext[i] != '/' && (i > 0 ==> ext[i] != '.')
  {
    var start := LastSlash(p) + 1;
    match LastIndex(p, '.')
    case None => ""
    case Some(dot) =>
      if dot >= start && exists k :: start <= k < dot && p[k] != '.' then p[dot..] else ""
  }

  /** `splitext` splits at position `i`: a dot with neither a slash nor a
      further dot after it, preceded within its path component by some
      character other than a dot (so `.profile` has no extension). */
  predicate ExtensionAt(p: string, i: int) {
    && 0 <= i < |p| && p[i] == '.'
    && (forall j :: i < j < |p| ==> p[j] != '/' && p[j] != '.')
    && exists k :: 0 <= k < i && p[k] != '.' && forall j :: k <= j < i ==> p[j] != '/'
  }

  /** The extension is non-empty exactly when some position splits the path,
      and then it is the text from that position on. */
  lemma ExtensionMeaning(p: string)
    ensures Extension(p) != "" <==> exists i :: ExtensionAt(p, i)
    ensures forall i :: ExtensionAt(p, i) ==> Extension(p) == p[i..]
  {
    var start := LastSlash(p) + 1;
    match LastIndex(p, '.') {
      case None =>
      case Some(dot) =>
        if dot >= start && exists k :: start <= k < dot && p[k] != '.' {
          assert ExtensionAt(p, dot);
        } else {
          if dot < start {
            assert dot < start - 1 && p[start - 1] == '/';
          } else if start > 0 {
            assert start - 1 < dot && p[start - 1] == '/';
          }
          assert !ExtensionAt(p, dot);
        }
    }
  }

  /** How `handle_get` serves a lower-cased extension. */
  datatype Kind = Html | Binary | Unsupported

  function KindOf(ext: string): Kind {
    if ext == ".html" then Html
    else if ext in [".txt", ".png", ".jpg", ".jpeg"] then Binary
    else Unsupported
  }

  const HtmlType: string := "text/html; charset=utf-8"

  /** The path `handle_get` looks up: the root names the index page. */
  function IndexPath(path: string): string {
    if path == "/" || path == "" then "/index.html" else path
  }

  /** The status text every call site pairs with a status code. */
  function Reason(status: nat): string {
    match status
    case 200 => "OK"
    case 201 => "Created"
    case 400 => "Bad Request"
    case 403 => "Forbidden"
    case 404 => "Not Found"
    case 405 => "Method Not Allowed"
    case 415 => "Unsupported Media Type"
    case 500 => "Internal Server Error"
    case _ => ""
  }

  lemma ReasonClean(status: nat)
    ensures Lacks(Reason(status), '\r')
  {
  }

  /** Which builder a handler calls, with the arguments that vary. */
  datatype Outcome =
    | Failure(status: nat, message: string)     // build_error_response
    | Page(text: string)                        // build_response: 200, an HTML file
    | Created(filename: string)                 // build_response: 201, an upload stored
    | Attachment(data: string, filename: string) // build_binary_response
  {
    function Status(): nat {
      match this
      case Failure(status, _) => status
      case Page(_) => 200
      case Created(_) => 201
      case Attachment(_, _) => 200
    }
  }

  /** The response the builder produces under directive `d`. */
  function Render(o: Outcome, d: Directive, date: string): Response {
    match o
    case Failure(status, message) => BuildErrorResponse(status, Reason(status), message, d, date)
    case Page(text) => BuildResponse(200, "OK", text, HtmlType, d, date)
    case Created(name) => BuildResponse(201, "Created", CreatedBody(name), "application/json", d, date)
    case Attachment(data, filename) => BuildBinaryResponse(data, filename, d, date)
  }

  /** What a rendered response says: the outcome's status with its standard
      reason phrase, the connection directive, keep-alive parameters only
      with keep-alive, and the body and content type of each kind of outcome. */
  predicate RenderedAs(o: Outcome, d: Directive, r: Response) {
    && r.status == o.Status() && r.reason == Reason(o.Status())
    && Value(r.fields, "Connection") == Some(d.Token())
    && (Has(r.fields, "Keep-Alive") ==> d == KeepAlive)
    && match o
       case Failure(status, message) =>
         r.body == ErrorPage(status, Reason(status), message) && Value(r.fields, "Content-Type") == Some(HtmlType)
       case Page(text) =>
         r.body == text && Value(r.fields, "Content-Type") == Some(HtmlType)
       case Created(name) =>
         r.body == CreatedBody(name) && Value(r.fields, "Content-Type") == Some("application/json")
       case Attachment(data, _) =>
         r.body == data && Value(r.fields, "Content-Type") == Some("application/octet-stream")
  }

  lemma RenderFields(o: Outcome, d: Directive, date: string)
    ensures RenderedAs(o, d, Render(o, d, date))
  {
    match o {
      case Failure(status, message) => FailureFields(status, message, d, date);
      case Page(text) => PageFields(text, d, date);
      case Created(name) => CreatedFields(name, d, date);
      case Attachment(data, filename) => AttachmentFields(data, filename, d, date);
    }
  }

  lemma FailureFields(status: nat, message: string, d: Directive, date: string)
    ensures RenderedAs(Failure(status, message), d, Render(Failure(status, message), d, date))
  {
  }

  lemma PageFields(text: string, d: Directive, date: string)
    ensures RenderedAs(Page(text), d, Render(Page(text), d, date))
  {
  }

  lemma CreatedFields(name: string, d: Directive, date: string)
    ensures RenderedAs(Created(name), d, Render(Created(name), d, date))
  {
  }

  lemma AttachmentFields(data: string, filename: string, d: Directive, date: string)
    ensures RenderedAs(Attachment(data, filename), d, Render(Attachment(data, filename), d, date))
  {
  }

  /** A response that follows the builders' conventions and whose wire form
      frames back as complete, with exactly its body. */
  predicate ReadsBack(r: Response) {
    && Conventional(r)
    && Body(Wire(r)) == r.body
    && Verdict(Wire(r)) == Some(true)
  }

  /** Each builder writes a conventional response, so its wire form frames
      back with exactly its body, when the date and any attachment name hold no CR. */
  lemma RenderReadsBack(o: Outcome, d: Directive, date: string)
    requires Lacks(date, '\r') && (o.Attachment? ==> Lacks(o.filename, '\r'))
    ensures ReadsBack(Render(o, d, date))
  {
    match o {
      case Failure(status, message) => FailureReadsBack(status, message, d, date);
      case Page(text) => PageReadsBack(text, d, date);
      case Created(name) => CreatedReadsBack(name, d, date);
      case Attachment(data, filename) => AttachmentReadsBack(data, filename, d, date);
    }
  }

  lemma FailureReadsBack(status: nat, message: string, d: Directive, date: string)
    requires Lacks(date, '\r')
    ensures ReadsBack(Render(Failure(status, message), d, date))
  {
    ReasonClean(status);
    BuildErrorResponseConventional(status, Reason(status), message, d, date);
    ResponseReadsBack(BuildErrorResponse(status, Reason(status), message, d, date));
  }

  lemma PageReadsBack(text: string, d: Directive, date: string)
    requires Lacks(date, '\r')
    ensures ReadsBack(Render(Page(text), d, date))
  {
    BuildResponseConventional(200, "OK", text, HtmlType, d, date);
    ResponseReadsBack(BuildResponse(200, "OK", text, HtmlType, d, date));
  }

  lemma CreatedReadsBack(name: string, d: Directive, date: string)
    requires Lacks(date, '\r')
    ensures ReadsBack(Render(Created(name), d, date))
  {
    JsonReadsBack(CreatedBody(name), d, date);
  }

  lemma JsonReadsBack(body: string, d: Directive, date: string)
    requires Lacks(date, '\r')
    ensures ReadsBack(BuildResponse(201, "Created", body, "application/json", d, date))
  {
    BuildResponseConventional(201, "Created", body, "application/json", d, date);
    ResponseReadsBack(BuildResponse(201, "Created", body, "application/json", d, date));
  }

  lemma AttachmentReadsBack(data: string, filename: string, d: Directive, date: string)
    requires Lacks(filename, '\r') && Lacks(date, '\r')
    ensures ReadsBack(Render(Attachment(data, filename), d, date))
  {
    BuildBinaryResponseConventional(data, filename, d, date);
    ResponseReadsBack(BuildBinaryResponse(data, filename, d, date));
  }

  /** `handle_get` once the path is fixed: `p` is the path looked up, `ext`
      the lower-cased extension and `name` the base name of its file, and
      `file` what the file system says about it. */
  function Serve(p: string, ext: string, name: string, file: FileStatus): Outcome {
    match file
    case NotAFile => Failure(404, "The requested resource " + p + " was not found")
    case File(binary, text) =>
      match KindOf(ext)
      case Unsupported => Failure(415, "File type " + ext + " is not supported")
      case Binary =>
        if binary.None? then Failure(500, "Error reading file")
        else Attachment(binary.value, name)
      case Html =>
        if text.None? then Failure(500, "Error reading file")
        else Page(text.value)
  }

  /** `handle_get`, up to the builder call. */
  function GetResult(env: Env, path: string): Outcome {
    var p := IndexPath(path);
    var fp := FilePath(p);
    Serve(p, Lower(Extension(fp)), Basename(fp), env.file(fp))
  }

  /** The JSON text `handle_post` answers a stored upload with
      (`json.dumps(..., indent=2)`; generated file names need no escaping). */
  const CreatedPrefix: string :=
    "{\n  \"status\": \"success\",\n  \"message\": \"File created successfully\",\n  \"filepath\": \"/uploads/"

  function CreatedBody(filename: string): string {
    CreatedPrefix + filename + "\"\n}"
  }

  /** `handle_post`, up to the builder call; `None` when it raises. */
  function PostResult(env: Env, req: Request): Option<Outcome> {
    if !Contains(HeaderOr(req.headers, "content-type"), "application/json") then
      Some(Failure(415, "Only application/json is supported for POST requests"))
    else
      match env.upload(req.body)
      case Raises => None
      case InvalidJson => Some(Failure(400, "Invalid JSON data"))
      case SaveFailed => Some(Failure(500, "Error saving file"))
      case Saved(name) => Some(Created(name))
  }

  /** The refusal a request gets from the three guards, in the order they
      run, or `None` when it passes all of them. */
  function Refusal(cfg: Config, env: Env, req: Request): Option<Outcome> {
    var host := HeaderOr(req.headers, "host");
    if host == "" then Some(Failure(400, "Missing Host header"))
    else if host !in ValidHosts(cfg) then Some(Failure(403, "Host header mismatch"))
    else if !ValidatePath(req.path, env.unquote, env.staysInRoot) then
      Some(Failure(403, "Unauthorized path access"))
    else None
  }

  /** What the handler for a request that passed the guards decides. */
  function Dispatch(env: Env, req: Request): Option<Outcome> {
    if req.httpMethod == "GET" then Some(GetResult(env, req.path))
    else if req.httpMethod == "POST" then PostResult(env, req)
    else Some(Failure(405, "Only GET and POST methods are supported"))
  }

  /** `handle_request` */
  function HandleRequest(cfg: Config, env: Env, req: Request): Handled {
    match Refusal(cfg, env, req)
    case Some(refused) => Reply(Render(refused, Close, env.date), Close)
    case None =>
      var d := ResolveDirective(req);
      match Dispatch(env, req)
      case None => Raised
      case Some(o) => Reply(Render(o, d, env.date), d)
  }

  /** The guards run before anything else: a refused request is answered
      with 400 or 403 and `close`, and neither the file system nor the
      upload store can change that answer. */
  lemma GuardsRunFirst(cfg: Config, env: Env, other: Env, req: Request)
    requires Refusal(cfg, env, req).Some?
    requires other.unquote == env.unquote && other.staysInRoot == env.staysInRoot && other.date == env.date
    ensures HandleRequest(cfg, env, req) == HandleRequest(cfg, other, req)
    ensures HandleRequest(cfg, env, req).Reply?
    ensures HandleRequest(cfg, env, req).directive == Close
    ensures HandleRequest(cfg, env, req).response.status in {400, 403}
  {
    RenderFields(Refusal(cfg, env, req).value, Close, env.date);
  }

  /** Which guard refuses, in order: a missing or empty Host is a 400, a Host
      outside the six allowed values a 403, and only then a path that fails
      `validate_path` a 403. */
  lemma RefusalOrder(cfg: Config, env: Env, req: Request)
    ensures var host := HeaderOr(req.headers, "host");
            var r := Refusal(cfg, env, req);
            && (host == "" <==> r.Some? && r.value.Status() == 400)
            && (r.Some? && r.value == Failure(403, "Host header mismatch") <==>
                  host != "" && host !in ValidHosts(cfg))
            && (r.Some? && r.value == Failure(403, "Unauthorized path access") <==>
                  host != "" && host in ValidHosts(cfg) && !ValidatePath(req.path, env.unquote, env.staysInRoot))
            && (r.None? <==>
                  host != "" && host in ValidHosts(cfg) && ValidatePath(req.path, env.unquote, env.staysInRoot))
  {
  }

  /** A request that passes the guards gets the resolved directive, only a
      POST can raise, and every method other than GET and POST is a 405
      under that directive. */
  lemma MethodDispatch(cfg: Config, env: Env, req: Request)
    requires Refusal(cfg, env, req).None?
    ensures HandleRequest(cfg, env, req).Reply? ==>
              HandleRequest(cfg, env, req).directive == ResolveDirective(req)
    ensures HandleRequest(cfg, env, req).Raised? ==> req.httpMethod == "POST"
    ensures req.httpMethod !in {"GET", "POST"} ==>
              && HandleRequest(cfg, env, req).Reply?
              && HandleRequest(cfg, env, req).response.status == 405
  {
    if req.httpMethod !in {"GET", "POST"} {
      RenderFields(Dispatch(env, req).value, ResolveDirective(req), env.date);
    }
  }

  /** Every reply announces in its `Connection` field the directive the
      connection loop acts on, and carries `Keep-Alive` only when that
      directive is keep-alive. */
  lemma ReplyAdvertisesDirective(cfg: Config, env: Env, req: Request)
    requires HandleRequest(cfg, env, req).Reply?
    ensures var h := HandleRequest(cfg, env, req);
            && Value(h.response.fields, "Connection") == Some(h.directive.Token())
            && (Has(h.response.fields, "Keep-Alive") ==> h.directive == KeepAlive)
  {
    match Refusal(cfg, env, req) {
      case Some(refused) => RenderFields(refused, Close, env.date);
      case None => RenderFields(Dispatch(env, req).value, ResolveDirective(req), env.date);
    }
  }

  /** The GET outcomes: 404 exactly when the looked-up path is not a regular
      file (so before any extension check), 415 for an existing file with an
      unsupported extension, 500 when the read raises, and otherwise 200 with
      the file's contents. */
  lemma GetOutcome(p: string, ext: string, name: string, file: FileStatus)
    ensures var o := Serve(p, ext, name, file);
            && o.Status() in {200, 404, 415, 500}
            && (o.Status() == 404 <==> file.NotAFile?)
            && (o.Status() == 404 ==> o == Failure(404, "The requested resource " + p + " was not found"))
            && (o.Status() == 415 <==> file.File? && KindOf(ext) == Unsupported)
            && (o.Status() == 200 <==>
                  || (file.File? && KindOf(ext) == Html && file.text.Some?)
                  || (file.File? && KindOf(ext) == Binary && file.binary.Some?))
            && (o.Status() == 200 && KindOf(ext) == Html ==> o == Page(file.text.value))
            && (o.Status() == 200 && KindOf(ext) == Binary ==> o == Attachment(file.binary.value, name))
            && (o.Page? <==> file.File? && KindOf(ext) == Html && file.text.Some?)
            && (o.Attachment? <==> file.File? && KindOf(ext) == Binary && file.binary.Some?)
  {
  }

  /** `name` is the last component of `fp`: the text after a slash that has
      no slash after it. */
  predicate LastComponent(fp: string, name: string) {
    && |name| < |fp| && name == fp[|fp| - |name|..] && fp[|fp| - |name| - 1] == '/'
    && forall i :: 0 <= i < |name| ==> name[i] != '/'
  }

  /** `basename` of a path with a slash is its last component. */
  lemma BasenameMeaning(fp: string, slash: nat)
    requires slash < |fp| && fp[slash] == '/'
    ensures LastComponent(fp, Basename(fp))
  {
    assert LastIndex(fp, '/').Some?;
  }

  /** The file `handle_get` looks up for a request path: the root names the
      index page, and the path without its leading slashes is joined to the
      resources directory. */
  function LookedUp(path: string): string {
    FilePath(IndexPath(path))
  }

  /** How a GET picks its file, for every request path. The file looked up
      decides 404; the lower-cased `splitext` of that file decides between
      415, an HTML page and an attachment; a page carries the file's text;
      an attachment carries its bytes under the file's last path component. */
  lemma GetPicksFile(env: Env, path: string)
    ensures var fp := LookedUp(path);
            var o := GetResult(env, path);
            var kind := KindOf(Lower(Extension(fp)));
            && (o.Status() == 404 <==> env.file(fp).NotAFile?)
            && (o.Status() == 404 ==> o == Failure(404, "The requested resource " + IndexPath(path) + " was not found"))
            && (env.file(fp).File? ==> (o.Status() == 415 <==> kind == Unsupported))
            && (o.Page? <==> env.file(fp).File? && kind == Html && env.file(fp).text.Some?)
            && (o.Page? ==> o.text == env.file(fp).text.value)
            && (o.Attachment? <==> env.file(fp).File? && kind == Binary && env.file(fp).binary.Some?)
            && (o.Attachment? ==> o.data == env.file(fp).binary.value && LastComponent(fp, o.filename))
  {
    var fp := LookedUp(path);
    var ext := Lower(Extension(fp));
    assert GetResult(env, path) == Serve(IndexPath(path), ext, Basename(fp), env.file(fp));
    GetOutcome(IndexPath(path), ext, Basename(fp), env.file(fp));
    assert fp[9] == '/';
    BasenameMeaning(fp, 9);
  }

  /** `/` and the empty path both serve the index page. */
  lemma RootServesIndex(env: Env)
    ensures GetResult(env, "/") == GetResult(env, "/index.html")
    ensures GetResult(env, "") == GetResult(env, "/index.html")
  {
  }

  /** The extension is compared after lower-casing: `/PAGE.HTML` is served
      as an HTML page. */
  lemma UpperCaseHtmlIsPage(env: Env, binary: Option<string>, text: string)
    requires env.file("resources/PAGE.HTML") == File(binary, Some(text))
    ensures GetResult(env, "/PAGE.HTML") == Page(text)
  {
    PageLookedUp();
    PageExtension();
    LowerHtml();
    GetPicksFile(env, "/PAGE.HTML");
  }

  lemma PageLookedUp()
    ensures LookedUp("/PAGE.HTML") == "resources/PAGE.HTML"
  {
    assert StripLeading("/PAGE.HTML", '/') == "PAGE.HTML";
  }

  lemma LowerHtml()
    ensures Lower(".HTML") == ".html"
  {
  }

  lemma PageExtension()
    ensures Extension("resources/PAGE.HTML") == ".HTML"
  {
    var fp := "resources/PAGE.HTML";
    assert ExtensionAt(fp, 14) by {
      assert fp[13] != '.';
    }
    ExtensionMeaning(fp);
    assert fp[14..] == ".HTML";
  }

  /** The POST outcomes: 415 unless the content type mentions
      `application/json`, and then the upload's fate decides between a
      raise, 400, 500 and 201. */
  lemma PostOutcome(env: Env, req: Request)
    ensures var o := PostResult(env, req);
            var json := Contains(HeaderOr(req.headers, "content-type"), "application/json");
            var up := env.upload(req.body);
            && (o.None? <==> json && up == Raises)
            && (o.Some? ==> o.value.Status() in {201, 400, 415, 500})
            && (o.Some? && o.value.Status() == 415 <==> !json)
            && (o.Some? && o.value.Status() == 201 <==> json && up.Saved?)
            && (o.Some? && o.value.Status() == 201 ==>
                  o.value == Created(up.filename))
  {
  }

  /** The file name sent in `Content-Disposition` comes from the request path,
      so it is free of CRs whenever the path is. */
  lemma BasenameClean(path: string)
    requires Lacks(path, '\r')
    ensures Lacks(Basename(FilePath(IndexPath(path))), '\r')
  {
    var p := IndexPath(path);
    var rest := StripLeading(p, '/');
    assert Lacks(p, '\r');
    LacksSlice(p, '\r', |p| - |rest|, |p|);
    var fp := FilePath(p);
    LacksConcat("resources/", rest, '\r');
    LacksSlice(fp, '\r', LastSlash(fp) + 1, |fp|);
  }

  /** An attachment a GET handler sends is named after the request path. */
  lemma DispatchClean(env: Env, req: Request)
    requires Lacks(req.path, '\r') && Dispatch(env, req).Some? && Dispatch(env, req).value.Attachment?
    ensures Lacks(Dispatch(env, req).value.filename, '\r')
  {
    assert req.httpMethod == "GET";
    var p := IndexPath(req.path);
    var fp := FilePath(p);
    assert Dispatch(env, req).value == Serve(p, Lower(Extension(fp)), Basename(fp), env.file(fp));
    ServeNamesAttachment(p, Lower(Extension(fp)), Basename(fp), env.file(fp));
    BasenameClean(req.path);
  }

  /** The attachment `Serve` sends carries the name it was given. */
  lemma ServeNamesAttachment(p: string, ext: string, name: string, file: FileStatus)
    requires Serve(p, ext, name, file).Attachment?
    ensures Serve(p, ext, name, file).filename == name
  {
  }

  /** The response `handle_request` returns is its outcome rendered under its directive. */
  lemma ReplyRendered(cfg: Config, env: Env, req: Request)
    requires HandleRequest(cfg, env, req).Reply?
    ensures var h := HandleRequest(cfg, env, req);
            && (Refusal(cfg, env, req).Some? ==> h.response == Render(Refusal(cfg, env, req).value, Close, env.date))
            && (Refusal(cfg, env, req).None? ==>
                  Dispatch(env, req).Some? && h.response == Render(Dispatch(env, req).value, h.directive, env.date))
  {
  }

  /** Every reply of `handle_request` frames back through the server's own
      receive rules with exactly its body, given a request path and a date
      without CRs (a parsed path never holds one). */
  lemma RepliesReadBack(cfg: Config, env: Env, req: Request)
    requires Lacks(env.date, '\r') && Lacks(req.path, '\r')
    requires HandleRequest(cfg, env, req).Reply?
    ensures ReadsBack(HandleRequest(cfg, env, req).response)
  {
    ReplyRendered(cfg, env, req);
    var h := HandleRequest(cfg, env, req);
    if Refusal(cfg, env, req).Some? {
      RenderReadsBack(Refusal(cfg, env, req).value, Close, env.date);
    } else {
      if Dispatch(env, req).value.Attachment? {
        DispatchClean(env, req);
      }
      RenderReadsBack(Dispatch(env, req).value, h.directive, env.date);
    }
  }
}

=== FILE: settings.dfy ===
/**
 The fixed settings of an `HTTPServer` instance that the request-handling
 code reads.
 */
module Settings {
  /** `keep_alive_timeout`: seconds a persistent connection may stay idle. */
  const KeepAliveTimeout: nat := 30

  /** `max_requests_per_connection`. */
  const MaxRequests: nat := 100

  /** The address the server was started with, which the Host check compares against. */
  datatype Config = Config(host: string, port: nat)
}

=== FILE: text.dfy ===
/**
 Python `str` operations that the server relies on, restated over `string`.
 Only the behaviour the server can observe is modelled: the whitespace set of
 `str.split()` / `str.strip()`, `str.find`, `str.split(sep)`, `str.join`, and
 ASCII case mapping for `str.lower()` / `str.upper()`.
 */
module Text {
  import opened Wrappers

  /** The characters Python's `str.isspace()` accepts; `split()` and `strip()` use the same set. */
  predicate IsSpace(c: char) {
    var n := c as int;
    (0x09 <= n <= 0x0D) || (0x1C <= n <= 0x20) || n == 0x85 || n == 0xA0 || n == 0x1680
    || (0x2000 <= n <= 0x200A) || n == 0x2028 || n == 0x2029 || n == 0x202F || n == 0x205F
    || n == 0x3000
  }

  predicate NoSpace(s: string) {
    forall i :: 0 <= i < |s| ==> !IsSpace(s[i])
  }

  /** `s.lstrip()` */
  function StripLeft(s: string): string {
    if |s| > 0 && IsSpace(s[0]) then StripLeft(s[1..]) else s
  }

  /** `s.rstrip()` */
  function StripRight(s: string): string {
    if |s| > 0 && IsSpace(s[|s| - 1]) then StripRight(s[..|s| - 1]) else s
  }

  /** `s.strip()` */
  function Strip(s: string): string {
    StripRight(StripLeft(s))
  }

  /** `lstrip` drops exactly the leading whitespace. (Kept out of the
      function's own contract so that it is only instantiated on demand.) */
  lemma {:induction false} StripLeftShape(s: string)
    ensures var r := StripLeft(s);
            && |r| <= |s| && r == s[|s| - |r|..]
            && (r == [] || !IsSpace(r[0]))
            && forall i :: 0 <= i < |s| - |r| ==> IsSpace(s[i])
  {
    if |s| > 0 && IsSpace(s[0]) {
      StripLeftShape(s[1..]);
      assert StripLeft(s) == StripLeft(s[1..]);
      forall i | 0 <= i < |s| - |StripLeft(s[1..])|
        ensures IsSpace(s[i])
      {
        if i > 0 {
          assert s[i] == s[1..][i - 1];
        }
      }
    }
  }

  /** `rstrip` drops exactly the trailing whitespace. */
  lemma {:induction false} StripRightShape(s: string)
    ensures var r := StripRight(s);
            && |r| <= |s| && r == s[..|r|]
            && (r == [] || !IsSpace(r[|r| - 1]))
            && forall i :: |r| <= i < |s| ==> IsSpace(s[i])
  {
    if |s| > 0 && IsSpace(s[|s| - 1]) {
      StripRightShape(s[..|s| - 1]);
    }
  }

  /** `strip()` of a string with one leading blank and trimmed ends removes just that blank. */
  lemma StripOneBlank(s: string)
    requires |s| > 0 && !IsSpace(s[0]) && !IsSpace(s[|s| - 1])
    ensures Strip(" " + s) == s
  {
    assert (" " + s)[1..] == s;
    assert StripLeft(" " + s) == StripLeft(s) == s;
  }

  /** Length of the longest whitespace-free prefix of `s`. */
  function WordLength(s: string): (n: nat)
    ensures n <= |s|
    ensures forall i :: 0 <= i < n ==> !IsSpace(s[i])
    ensures n == |s| || IsSpace(s[n])
  {
    if |s| == 0 || IsSpace(s[0]) then 0 else 1 + WordLength(s[1..])
  }

  /** `s.split()` with no argument: the maximal runs of non-whitespace characters. */
  function Words(s: string): (ws: seq<string>)
    decreases |s|
    ensures forall i :: 0 <= i < |ws| ==> |ws[i]| > 0 && NoSpace(ws[i])
  {
    StripLeftShape(s);
    var t := StripLeft(s);
    if |t| == 0 then []
    else
      var n := WordLength(t);
      var w := t[..n];
      assert |w| > 0 && NoSpace(w);
      [w] + Words(t[n..])
  }

  /** The whitespace-free prefix of a word followed by whitespace, or by nothing, is that word. */
  lemma {:induction false} WordLengthOfWord(w: string, rest: string)
    requires NoSpace(w) && (rest == [] || IsSpace(rest[0]))
    ensures WordLength(w + rest) == |w|
    decreases |w|
  {
    if |w| == 0 {
      assert w + rest == rest;
    } else {
      assert (w + rest)[1..] == w[1..] + rest;
      WordLengthOfWord(w[1..], rest);
    }
  }

  /** A leading blank does not change the words. */
  lemma WordsAfterBlank(s: string)
    ensures Words(" " + s) == Words(s)
  {
    assert (" " + s)[1..] == s;
    assert StripLeft(" " + s) == StripLeft(s);
  }

  /** `" ".join(ws).split() == ws` for non-empty words without whitespace:
      `split()` is the inverse of joining words with single blanks. */
  lemma {:induction false} WordsOfJoin(ws: seq<string>)
    requires forall i :: 0 <= i < |ws| ==> |ws[i]| > 0 && NoSpace(ws[i])
    ensures Words(Join(ws, " ")) == ws
    decreases |ws|
  {
    if |ws| == 1 {
      WordLengthOfWord(ws[0], "");
      assert ws[0] + "" == ws[0];
      assert ws[0][|ws[0]|..] == "";
    } else if |ws| > 1 {
      var w := ws[0];
      var rest := Join(ws[1..], " ");
      var s := w + " " + rest;
      assert Join(ws, " ") == s;
      assert StripLeft(s) == s;
      WordLengthOfWord(w, " " + rest);
      assert w + (" " + rest) == s;
      assert s[|w|..] == " " + rest;
      WordsAfterBlank(rest);
      WordsOfJoin(ws[1..]);
      assert Words(s) == [w] + Words(" " + rest);
    }
  }

  /** `str.lower()` restricted to ASCII letters. */
  function LowerChar(c: char): char {
    if 'A' <= c <= 'Z' then (c as int + 32) as char else c
  }

  /** `str.upper()` restricted to ASCII letters. */
  function UpperChar(c: char): char {
    if 'a' <= c <= 'z' then (c as int - 32) as char else c
  }

  function Lower(s: string): (r: string)
    ensures |r| == |s| && forall i :: 0 <= i < |s| ==> r[i] == LowerChar(s[i])
  {
    if |s| == 0 then "" else [LowerChar(s[0])] + Lower(s[1..])
  }

  function Upper(s: string): (r: string)
    ensures |r| == |s| && forall i :: 0 <= i < |s| ==> r[i] == UpperChar(s[i])
  {
    if |s| == 0 then "" else [UpperChar(s[0])] + Upper(s[1..])
  }

  /** `c not in s` */
  predicate Lacks(s: string, c: char) {
    c !in s
  }

  /** A slice of a string without `c` is without `c`. */
  lemma LacksSlice(s: string, c: char, i: nat, j: nat)
    requires Lacks(s, c) && i <= j <= |s|
    ensures Lacks(s[i..j], c)
  {
  }

  /** A concatenation is without `c` exactly when both parts are. */
  lemma LacksConcat(a: string, b: string, c: char)
    ensures Lacks(a + b, c) <==> Lacks(a, c) && Lacks(b, c)
  {
    if c in a {
      var k :| 0 <= k < |a| && a[k] == c;
      assert (a + b)[k] == c;
    }
    if c in b {
      var k :| 0 <= k < |b| && b[k] == c;
      assert (a + b)[|a| + k] == c;
    }
  }

  /** `s.startswith(p)` */
  predicate StartsWith(s: string, p: string) {
    |p| <= |s| && s[..|p|] == p
  }

  /** One differing position is enough to refute a prefix. */
  lemma NotStartsWith(s: string, p: string, i: nat)
    requires i < |p| && i < |s| && s[i] != p[i]
    ensures !StartsWith(s, p)
  {
  }

  /** `p` occurs in `s` starting at index `i`. */
  predicate OccursAt(s: string, p: string, i: int) {
    0 <= i && i + |p| <= |s| && s[i..i + |p|] == p
  }

  /** `i` is the first index at which `p` occurs in `s`. */
  predicate FirstAt(s: string, p: string, i: int) {
    OccursAt(s, p, i) && forall j :: 0 <= j < i ==> !OccursAt(s, p, j)
  }

  ghost predicate Occurs(s: string, p: string) {
    exists i :: OccursAt(s, p, i)
  }

  /** The first occurrence of `p` in `s` at or after `k`, if any. */
  function IndexFrom(s: string, p: string, k: nat): (r: Option<nat>)
    requires k <= |s|
    decreases |s| - k
    ensures r.Some? ==> k <= r.value && r.value + |p| <= |s|
  {
    if k + |p| > |s| then None
    else if s[k..k + |p|] == p then Some(k)
    else IndexFrom(s, p, k + 1)
  }

  lemma {:induction false} IndexFromMeaning(s: string, p: string, k: nat)
    requires k <= |s|
    decreases |s| - k
    ensures var r := IndexFrom(s, p, k);
            && (r.Some? ==> OccursAt(s, p, r.value) && forall j :: k <= j < r.value ==> !OccursAt(s, p, j))
            && (r.None? ==> forall j :: k <= j ==> !OccursAt(s, p, j))
  {
    if k + |p| <= |s| && s[k..k + |p|] != p {
      IndexFromMeaning(s, p, k + 1);
    }
  }

  /** `s.find(p)`, with `-1` rendered as `None`: the first occurrence, if any. */
  function IndexOf(s: string, p: string): (r: Option<nat>)
    ensures r.Some? ==> r.value + |p| <= |s|
  {
    IndexFrom(s, p, 0)
  }

  /** `IndexOf` finds the first occurrence, and finds none only when there is none. */
  lemma IndexOfMeaning(s: string, p: string)
    ensures IndexOf(s, p).Some? ==> FirstAt(s, p, IndexOf(s, p).value)
    ensures IndexOf(s, p).None? ==> !Occurs(s, p)
  {
    IndexFromMeaning(s, p, 0);
  }

  /** The first occurrence is unique, so it determines `IndexOf`. */
  lemma IndexOfIs(s: string, p: string, i: nat)
    requires FirstAt(s, p, i)
    ensures IndexOf(s, p) == Some(i)
  {
    IndexOfMeaning(s, p);
  }

  /** Searching a prefix finds the first occurrence when it lies wholly
      inside the prefix, and nothing otherwise. */
  lemma IndexOfPrefix(s: string, p: string, j: nat)
    requires j <= |s|
    ensures IndexOf(s, p).Some? && IndexOf(s, p).value + |p| <= j ==> IndexOf(s[..j], p) == IndexOf(s, p)
    ensures IndexOf(s, p).None? || IndexOf(s, p).value + |p| > j ==> IndexOf(s[..j], p).None?
  {
    var t := s[..j];
    IndexOfMeaning(s, p);
    IndexOfMeaning(t, p);
    forall m | OccursAt(t, p, m)
      ensures OccursAt(s, p, m)
    {
      assert t[m..m + |p|] == s[m..m + |p|];
    }
    if IndexOf(s, p).Some? && IndexOf(s, p).value + |p| <= j {
      var k := IndexOf(s, p).value;
      assert t[k..k + |p|] == s[k..k + |p|];
      IndexOfIs(t, p, k);
    }
  }

  /** `p in s` */
  predicate Contains(s: string, p: string) {
    IndexOf(s, p).Some?
  }

  /** `s.split(sep)` for a non-empty separator: the pieces between successive
      non-overlapping occurrences, scanning from the left. */
  function Split(s: string, sep: string): (parts: seq<string>)
    requires |sep| > 0
    decreases |s|
    ensures |parts| > 0
  {
    match IndexOf(s, sep)
    case None => [s]
    case Some(i) => [s[..i]] + Split(s[i + |sep|..], sep)
  }

  /** `sep.join(xs)` */
  function Join(xs: seq<string>, sep: string): string {
    if |xs| == 0 then ""
    else if |xs| == 1 then xs[0]
    else xs[0] + sep + Join(xs[1..], sep)
  }

  /** A join starts with the first character of its first piece. */
  lemma JoinStartsWithFirst(xs: seq<string>, sep: string)
    requires |xs| > 0 && |xs[0]| > 0
    ensures |Join(xs, sep)| > 0 && Join(xs, sep)[0] == xs[0][0]
  {
  }

  /** No piece contains the first character of the separator. */
  predicate Unbroken(xs: seq<string>, sep: string)
    requires |sep| > 0
  {
    forall i, j :: 0 <= i < |xs| && 0 <= j < |xs[i]| ==> xs[i][j] != sep[0]
  }

  /** A piece without the separator's first character starts no separator,
      whatever follows it. */
  lemma NoSeparatorIn(x: string, sep: string, tail: string)
    requires |sep| > 0 && forall j :: 0 <= j < |x| ==> x[j] != sep[0]
    ensures forall j :: 0 <= j < |x| ==> !OccursAt(x + tail, sep, j)
  {
    forall j | 0 <= j < |x|
      ensures !OccursAt(x + tail, sep, j)
    {
      assert (x + tail)[j] == x[j] != sep[0];
      if j + |sep| <= |x + tail| {
        assert (x + tail)[j..j + |sep|][0] == (x + tail)[j];
      }
    }
  }

  /** Such a piece on its own splits into itself. */
  lemma SplitWhole(x: string, sep: string)
    requires |sep| > 0 && forall j :: 0 <= j < |x| ==> x[j] != sep[0]
    ensures Split(x, sep) == [x]
  {
    NoSeparatorIn(x, sep, "");
    assert x + "" == x;
    IndexOfMeaning(x, sep);
  }

  /** Such a piece followed by the separator splits off as the first part. */
  lemma SplitFirstPiece(x: string, sep: string, rest: string)
    requires |sep| > 0 && forall j :: 0 <= j < |x| ==> x[j] != sep[0]
    ensures Split(x + sep + rest, sep) == [x] + Split(rest, sep)
  {
    var s := x + sep + rest;
    NoSeparatorIn(x, sep, sep + rest);
    assert s == x + (sep + rest);
    assert s[|x|..|x| + |sep|] == sep;
    IndexOfIs(s, sep, |x|);
    assert s[..|x|] == x;
    assert s[|x| + |sep|..] == rest;
  }

  /** Splitting a join gives the pieces back, provided no piece could start a separator. */
  lemma {:induction false} SplitJoin(xs: seq<string>, sep: string)
    requires |sep| > 0 && |xs| > 0
    requires Unbroken(xs, sep)
    ensures Split(Join(xs, sep), sep) == xs
  {
    var x := xs[0];
    assert forall j :: 0 <= j < |x| ==> x[j] != sep[0];
    if |xs| == 1 {
      SplitWhole(x, sep);
    } else {
      SplitFirstPiece(x, sep, Join(xs[1..], sep));
      assert Unbroken(xs[1..], sep) by {
        forall i, j | 0 <= i < |xs[1..]| && 0 <= j < |xs[1..][i]|
          ensures xs[1..][i][j] != sep[0]
        {
          assert xs[1..][i] == xs[i + 1];
        }
      }
      SplitJoin(xs[1..], sep);
      assert xs == [x] + xs[1..];
    }
  }

  /** `s.lstrip(c)` for a single character. */
  function StripLeading(s: string, c: char): (r: string)
    ensures |r| <= |s| && r == s[|s| - |r|..]
    ensures r == [] || r[0] != c
  {
    if |s| > 0 && s[0] == c then StripLeading(s[1..], c) else s
  }

  /** The index of the last occurrence of `c` in `s`, like `s.rfind(c)`. */
  function LastIndex(s: string, c: char): (r: Option<nat>)
    ensures r.Some? ==> r.value < |s| && s[r.value] == c
                        && forall j :: r.value < j < |s| ==> s[j] != c
    ensures r.None? ==> forall j :: 0 <= j < |s| ==> s[j] != c
  {
    if |s| == 0 then None
    else if s[|s| - 1] == c then Some(|s| - 1)
    else LastIndex(s[..|s| - 1], c)
  }
}

=== FILE: wrappers.dfy ===
/** Failure-carrying values shared by every module of the model. */
module Wrappers {

  /** A value that may be absent: Python's `None` return, or a call that raised. */
  datatype Option<+T> = None | Some(value: T)
}
